=== FILE: README.md ===
# SH-RPi daemon: a Dafny model of the device protocol, the blackout supervisor and the control interface

The SH-RPi daemon runs on a Raspberry Pi. It talks to the SH-RPi power board over I2C and shuts the computer down cleanly when input power has been gone for too long. It also serves a small HTTP interface for querying the board and configuring it.

This project models four parts of it:

- **The device protocol** of the current driver (`src/shrpi/i2c.py`):
  - version probing and caching;
  - the choice between byte and word encoding;
  - fixed-point analog scaling;
  - 16-bit packing;
  - watchdog units;
  - the 18-state decode;
  - per-generation capabilities;
  - the factory that picks a generation.
- **The blackout supervisor** (`src/shrpi/state_machine.py`). It is modelled as a pure transition `Step`, plus one polled iteration `Iterate` that reads the board and carries out the step's effects.
- **The HTTP request handlers** (`src/shrpi/server.py`). Each handler is a total function that returns a status, a body, the bus afterwards, and the host commands it schedules.
- **The two older drivers**: the stand-alone `shrpi/shrpi_device.py` and the previous board's `sailor_hat/sailor_hat_device.py`.

## The bus

The device is a register map plus an event log (`Transport.Bus`).

- Every transaction appends one event to the log.
- A transaction fails with `BusFault` in three cases:
  - the device is offline;
  - the transaction's position in the log is one of the bus's `glitches` (a transient failure);
  - it reads a register that holds fewer bytes than it asks for.
- Writes store only the low eight bits of each value. This is the behaviour assumed of the I2C library's unsigned 8-bit message fields. The library is not part of this model.
- Host commands are logged as `Exec` events in the same log. This lets the model state the order of device writes and commands. Examples are the supervisor's `sudo poweroff`, and the `rtcwake`, `shutdown` and poweroff-command launches scheduled by the HTTP handlers.

## Numbers

- Voltages, currents, temperatures and times are `real`.
- Python's `int()` on a float truncates toward zero. It is written out as `Numeric.Trunc`.
- `str()` of an integer is `Numeric.DecimalString`.

Python exceptions become `Err` values of `Outcome.Fault`:

| Python exception | `Outcome.Fault` |
|---|---|
| `OSError` from the bus | `BusFault` |
| `ValueError` from the state enumeration | `UnknownState` |
| `NotImplementedError` | `NotImplemented` |
| `ZeroDivisionError` | `ZeroDivision` |
| `TypeError` ("not callable") | `NotCallable` |
| `AttributeError` | `NoAttribute` |
| `DeviceNotFoundError` | `DeviceNotFound` |

## Model

| member | source | states |
|---|---|---|
| Numeric.Trunc | src/shrpi/i2c.py:111 | `int()` of a float truncates toward zero: the result is within one of the value, on zero's side of it, for either sign |
| Numeric.TruncMonotone | src/shrpi/i2c.py:117 | truncation never reverses the order of two values |
| Numeric.ParseDecimalString | src/shrpi/i2c.py:125 | the decimal rendering of a byte value in a version string reads back as that value |
| Transport.WordRoundTrip | src/shrpi/i2c.py:81-91 | a value below 65536 packed as `[v>>8, v&0xFF]` and read back as `buf[0]<<8 \| buf[1]` is unchanged, and its bytes need no truncation |
| Transport.WordWraps | src/shrpi/i2c.py:89-92 | no range check precedes packing: any integer reaches the device as its value modulo 65536 |
| Transport.WriteThenReadWord | src/shrpi/i2c.py:78-92 | a word written to a register reads back modulo 65536, and every other register keeps its contents |
| Transport.WriteThenReadByte | src/shrpi/i2c.py:66-87 | a byte written to a register reads back as its low eight bits |
| Version.ParseRender | src/shrpi/i2c.py:124-130 | the rendered `a.b.c[-d]` string is unambiguous: parsing it gives back the four fields |
| Version.HasMajorIff | src/shrpi/i2c.py:103 | a rendered version starts with `"d."` exactly when its major number is the digit d |
| Version.LegacyMatchesBlock | src/shrpi/i2c.py:123-130 | legacy byte b and the block `[1, 0, b, 0xFF]` render as the same string |
| Version.Probe | src/shrpi/i2c.py:123-131 | one legacy-byte read, and a 4-byte block read exactly when that byte is 0xFF; it succeeds iff those reads succeed; the result parses as `1.0.b`, or as the block's fields with a build part iff the fourth byte is not 0xFF; the result is never "Unknown"; the register map is untouched |
| DeviceStates.Decode | src/shrpi/i2c.py:178-179 | bytes 0 to 17 decode to the state with that code; every other byte fails, naming the byte |
| DeviceStates.DecodeCode | src/shrpi/i2c.py:9-27 | every one of the 18 states is decoded from its own code |
| Protocol.HardwareVersion | src/shrpi/i2c.py:119-132 | a cached version is returned with no transaction; otherwise the result and the bus are exactly those of the version probe of legacy register 0x01 and block register 0x03; success fills the cache with the returned string, failure leaves the device as it was |
| Protocol.FirmwareVersion | src/shrpi/i2c.py:134-147 | as for the hardware version, with legacy register 0x02 and block register 0x04; a successful probe also applies `_set_firmware_version` |
| Protocol.SetFirmwareVersion | src/shrpi/i2c.py:101-105 | word encoding is in force afterwards iff it was before or the version starts with `"2."`: nothing switches back to bytes |
| Protocol.VersionCallIsCached | src/shrpi/i2c.py:120-121 | after a successful version query, a second query returns the same string and changes neither the device nor the bus |
| Protocol.ProbedIsStable | src/shrpi/i2c.py:135-136 | on a device that has probed both versions, version queries leave the device and the bus unchanged |
| Protocol.New | src/shrpi/i2c.py:35-49 | construction probes the hardware version first, keeps the generation's scales, and succeeds exactly when the hardware probe and the firmware probe that follows it both succeed; on success the cached strings are exactly what those probes returned and the encoding matches the firmware |
| Protocol.Factory | src/shrpi/i2c.py:51-64 | a successful factory returns a probed device of generation V1 or V2 (never the base class) with that generation's scales. A failure of the first, base-class construction is a bus fault, and only a failure of the second construction becomes DeviceNotFound. On a bus with no transient failures, the factory succeeds exactly when the first construction does |
| Protocol.FactoryGeneration | src/shrpi/i2c.py:51-64 | on any bus, including one with transient failures, a successful factory picks V1 exactly when the hardware version starts with `"1."`, which is exactly when the probed major number is 1 |
| Protocol.AnalogCodec | src/shrpi/i2c.py:107-117 | for 0 ≤ val < scale, the encoded count is in range and decodes to a value at most val and less than one step (scale/256 or scale/65536) below it |
| Protocol.RawBound | src/shrpi/i2c.py:107-114 | every decoded analog value lies between 0 and one step below full scale |
| Protocol.ReadAnalog | src/shrpi/i2c.py:107-114 | exactly one transaction, a byte read or a 2-byte block read according to the encoding in force; it succeeds exactly when the register answers with enough bytes for that encoding, so a failed read is never turned into a value; the value stays within full scale |
| Protocol.WriteAnalog | src/shrpi/i2c.py:110-117 | a zero scale fails with a division by zero before any transaction; otherwise exactly one write at the register, which succeeds iff the bus is up |
| Protocol.AnalogWriteRead | src/shrpi/i2c.py:107-117 | on a bus that answers, a value in [0, scale) written and read back through the device loses less than one step and never rounds up |
| Protocol.PowerOnThreshold | src/shrpi/i2c.py:166-167 | one transaction at 0x13, and it is a read; it succeeds exactly when the register answers; the value is within the supercap's full scale |
| Protocol.SetPowerOnThreshold | src/shrpi/i2c.py:169-170 | with a zero supercap scale it fails and touches nothing; otherwise exactly one write, at 0x13 |
| Protocol.PowerOffThreshold | src/shrpi/i2c.py:172-173 | one transaction at 0x14, and it is a read; it succeeds exactly when the register answers; the value is within the supercap's full scale |
| Protocol.SetPowerOffThreshold | src/shrpi/i2c.py:175-176 | with a zero supercap scale it fails and touches nothing; otherwise exactly one write, at 0x14 |
| Protocol.ThresholdRoundTrip | src/shrpi/i2c.py:166-176 | a threshold in [0, vcap_max) set and read back is at most one encoding step below the value set |
| Protocol.ThresholdAtFullScaleWraps | src/shrpi/i2c.py:169-170 | no range check: on byte firmware a threshold of exactly vcap_max is stored as 0 and reads back as 0.0 V |
| Protocol.WatchdogTimeout | src/shrpi/i2c.py:152-157 | one read at 0x12, a word on the second generation or `"2."` firmware and a byte otherwise; it succeeds iff the register answers, and the value is the count over 1000 or over 10, below 65.536 s or 25.6 s |
| Protocol.SetWatchdogTimeout | src/shrpi/i2c.py:159-164 | exactly one write at 0x12, which succeeds iff the bus is up |
| Protocol.WatchdogRoundTrip | src/shrpi/i2c.py:152-164 | a timeout that fits the register reads back truncated to whole milliseconds (word) or deciseconds (byte); a timeout of 0 reads back as exactly 0 |
| Protocol.WatchdogByteOverflow | src/shrpi/i2c.py:159-164 | with byte encoding, 25.6 s is stored as 0, so the watchdog reads back disabled |
| Protocol.WatchdogElapsed | src/shrpi/i2c.py:193-194 | one read of 0x16; it succeeds iff the register answers, and the value is 0.1 s per count, so it lies in [0, 25.5] s |
| Protocol.En5vState | src/shrpi/i2c.py:149-150 | one read of 0x10; true iff the register byte is non-zero |
| Protocol.State | src/shrpi/i2c.py:178-179 | one read of 0x15; succeeds iff the byte is below 18, and then it is the code of the returned state |
| Protocol.DcinVoltage | src/shrpi/i2c.py:181-182 | one transaction at 0x20, and it is a read; it succeeds exactly when the register answers; the value is within the DC-in full scale |
| Protocol.SupercapVoltage | src/shrpi/i2c.py:184-185 | one transaction at 0x21, and it is a read; it succeeds exactly when the register answers; the value is within the supercap full scale |
| Protocol.RequestShutdown | src/shrpi/i2c.py:187-188 | exactly the write of 0x01 to 0x30, which succeeds iff the bus is up |
| Protocol.RequestSleep | src/shrpi/i2c.py:190-191 | exactly the write of 0x01 to 0x31, which succeeds iff the bus is up |
| Protocol.LedBrightness | src/shrpi/i2c.py:196-251 | base class: not implemented, no transaction; V1: no value, no transaction; V2: one byte read of 0x17, succeeding exactly when the register answers |
| Protocol.SetLedBrightness | src/shrpi/i2c.py:199-254 | base class and V1: not implemented, no transaction; V2: exactly the byte write of the brightness to 0x17 |
| Protocol.LedRoundTrip | src/shrpi/i2c.py:250-254 | on V2, a brightness of 0 to 255 written reads back unchanged |
| Protocol.InputCurrent | src/shrpi/i2c.py:202-257 | base class: not implemented; V1: no value, no transaction; V2: one read at 0x22, succeeding exactly when the register answers, with a value |
| Protocol.Temperature | src/shrpi/i2c.py:205-260 | base class: not implemented; V1: no value, no transaction; V2: one read at 0x23, succeeding exactly when the register answers, with a value |
| Protocol.V2MeasurementScales | src/shrpi/i2c.py:237-260 | in either encoding, a V2 device that answers reads current as 2.5 A and temperature as 512 K times the register count over the number of steps |
| Protocol.BaseAnalogIsDead | src/shrpi/i2c.py:46-49 | a base-class device reads DC-in as 0.0 whatever the register holds, and every threshold write fails with a division by zero without touching the bus |
| Protocol.FactoryDcinIsLive | src/shrpi/i2c.py:214-242 | a device as the factory returns it reads DC-in as 32.1 V times the register count over 256 (byte firmware) or 65536 (word firmware) |
| Supervisor.Step | src/shrpi/state_machine.py:27-56 | every move follows the START→OK→{OK,BLACKOUT}, BLACKOUT→{BLACKOUT,OK,SHUTDOWN}, SHUTDOWN→DEAD→DEAD graph. START arms the watchdog with 10 s. OK enters BLACKOUT iff voltage < limit, recording the time. From BLACKOUT, OK iff voltage > limit, and SHUTDOWN iff voltage ≤ limit and the blackout has lasted strictly longer than the limit. SHUTDOWN notifies the device before poweroff, unless dry run. Other modes have no effects. |
| Supervisor.AtLimitChangesNothing | src/shrpi/state_machine.py:30-39 | a voltage equal to the limit neither starts nor ends a blackout |
| Supervisor.RecoveryBeforeDeadline | src/shrpi/state_machine.py:35-44 | a recovering voltage returns to OK even when the time limit has also expired |
| Supervisor.DeadIsFinal | src/shrpi/state_machine.py:54-56 | from DEAD, any sequence of polls stays in DEAD and has no effects |
| Supervisor.AtMostOneShutdown | src/shrpi/state_machine.py:45-56 | over any run, the device shutdown command and poweroff are each issued at most once, and never from DEAD |
| Supervisor.BriefOutageRecovers | src/shrpi/state_machine.py:30-39 | at 100 ms polls with limits 0.25 s and 9 V, input 10,10,5,5,5,10 goes OK,OK,BLACKOUT,BLACKOUT,BLACKOUT,OK |
| Supervisor.SustainedOutageShutsDown | src/shrpi/state_machine.py:30-53 | with the same limits, input 10,5,5,5,5 goes OK,BLACKOUT,BLACKOUT,BLACKOUT,SHUTDOWN and is DEAD on every later poll |
| Supervisor.Perform | src/shrpi/state_machine.py:27-53 | carrying out effects only appends device writes and host commands to the log |
| Supervisor.Iterate | src/shrpi/state_machine.py:20-57 | every iteration begins with the DC-in read and performs exactly one read of it; a successful iteration ends in the mode `Step` chooses for the voltage read, which lies along the transition graph; after a successful read, the bus and the success of the iteration are those of performing `Step`'s effects |
| Supervisor.ShutdownOrder | src/shrpi/state_machine.py:45-53 | from SHUTDOWN, a successful iteration ends in DEAD. Without dry run, its log is the DC-in read, then the shutdown command, then `sudo poweroff`. Poweroff never runs when the device write failed or in a dry run. |
| Supervisor.StartArmsWatchdog | src/shrpi/state_machine.py:27-29 | from START, a successful iteration ends in OK. Its log is the DC-in read and then exactly one watchdog write of 10 s: 10000 ms as the word `[39, 16]` when the device uses word watchdog units, otherwise 100 deciseconds as a byte. On a bus with no transient failures whose DC-in register can be read, the iteration succeeds |
| Supervisor.BaseDeviceBlacksOut | src/shrpi/state_machine.py:24-34 | with the base class's zero scales, a supervisor in OK enters BLACKOUT on its next poll whatever the input voltage |
| Supervisor.FactoryDeviceStaysPowered | src/shrpi/state_machine.py:24-31 | with a device as the factory builds it, in either encoding, a DC-in register whose scaled value is at or above the limit keeps the supervisor in OK |
| Control.GetState | src/shrpi/server.py:39-51 | reads state, 5 V output and watchdog without writing; on success the fields are the state's name, whether the 5 V read was true, and whether the timeout read is non-zero |
| Control.WatchdogEnabledIff | src/shrpi/server.py:43 | on a device that answers, the answer is 200; the state field is the name of the decoded state byte, `5v_output_enabled` is whether its register byte is non-zero, and the watchdog is reported enabled iff its register count is non-zero |
| Control.PostShutdown | src/shrpi/server.py:53-60 | the device is told first; the poweroff command is scheduled iff that write succeeded, and then the answer is 204 |
| Control.WakeTimestamp | src/shrpi/server.py:64-88 | a given datetime is accepted iff not earlier than now, and then wakes at its whole second. Failing that, a given delay is accepted iff ≥ 0, and then wakes at the current whole second plus the delay. With neither field the wake time is 0. Only unsupported field values raise. The answer is a bad request exactly when the datetime is earlier than now or unparsable, or, with no datetime, when the delay is unparsable or negative. |
| Control.PostSleep | src/shrpi/server.py:62-100 | 400 exactly on a validation failure, and then the bus is untouched and nothing is scheduled. 204 iff validation passes and the sleep write succeeds, and then rtcwake and then shutdown are scheduled. |
| Control.DatetimeTakesPrecedence | src/shrpi/server.py:69-79 | with a datetime present the delay field has no influence |
| Control.BoundariesAccepted | src/shrpi/server.py:75-88 | a datetime equal to now and a delay of 0 are both accepted and wake at the current second |
| Control.AlarmOutlivesDeviceFailure | src/shrpi/server.py:90-95 | when the sleep write fails the answer is 500 but rtcwake is already scheduled |
| Control.GetConfigKey | src/shrpi/server.py:118-133 | unknown keys give 404 with no transaction. Each known key relays its own accessor: its value as JSON with 200, or 500 when it raised. There is exactly one transaction, at the key's register, except for the LED on devices without one. Nothing is written. |
| Control.PutConfigKey | src/shrpi/server.py:135-156 | a non-number gives 400 before the key is looked at; an unknown key gives 404 with no transaction; each known key answers 204 if its setter succeeded and 500 if it raised, leaving the bus the setter left. That means 204 iff the bus is up for the watchdog, iff the supercap scale is non-zero and the bus is up for a threshold, and iff the device is V2 and the bus is up for the LED |
| Control.PutThenGetThreshold | src/shrpi/server.py:118-156 | a threshold put through the interface reads back through it at most one encoding step below |
| Control.PutThenGetWatchdog | src/shrpi/server.py:118-156 | a watchdog timeout that fits the register, put through the interface, reads back through it truncated to whole ticks, and 0 reads back as 0 |
| Control.LedIsTruncated | src/shrpi/server.py:151-152 | the LED brightness reaches the device truncated toward zero |
| Control.GetValuesKey | src/shrpi/server.py:174-189 | unknown keys give 404 with no transaction. Each known key relays its own accessor: its value as JSON with 200, or 500 when it raised. There is exactly one transaction, at the key's register, except for current and temperature on devices without them. Nothing is written. |
| Control.KnownKeysAreRead | src/shrpi/server.py:174-189 | on a V2 device that answers, every known measurement key is served with 200 after exactly one transaction |
| LegacyShrpi.CallVersion | shrpi/shrpi_device.py:32-36 | a version call through an instance succeeds iff no instance attribute of that name exists; it touches neither device nor bus |
| LegacyShrpi.VersionMethodsAreShadowed | shrpi/shrpi_device.py:35-36 | both version calls through an instance fail as not callable, on a bus from which the method body decodes a version |
| LegacyShrpi.ProbeHardware | shrpi/shrpi_device.py:75-85 | always reads 0x01 first, cached or not; success stores the returned string, which is never "Unknown" |
| LegacyShrpi.ProbeFirmware | shrpi/shrpi_device.py:87-97 | always reads 0x02 first; success applies `set_firmware_version` to the returned string |
| LegacyShrpi.SetFirmwareVersion | shrpi/shrpi_device.py:64-67 | stores the string; word reads are in force afterwards iff they were before or the version starts with `"2."` |
| LegacyShrpi.NoVersionCache | shrpi/shrpi_device.py:75-76 | a second probe reads the legacy register again and, on a bus that answers, yields the same result |
| LegacyShrpi.AgreesWithCurrentDriver | shrpi/shrpi_device.py:75-97 | the legacy decode equals the current driver's first, uncached version query |
| LegacyShrpi.ReadAnalog | shrpi/shrpi_device.py:69-73 | one byte read or one SMBus read-word at the register, by encoding; it succeeds iff the register holds enough bytes, and the value is scale × count / 256 (byte) or scale × (low + 256·high) / 65536 (word) |
| LegacyShrpi.ByteOrder | shrpi/shrpi_device.py:51-55 | byte reads agree with the current driver's; the SMBus read-word takes the low byte first, so `[1, 0]` reads 1 here and 256 in the current driver |
| LegacyShrpi.PowerOnThreshold | shrpi/shrpi_device.py:105-106 | one transaction at 0x13; the value is the fixed 9.35 V times the register count over 256 or 65536, so below 9.35 V |
| LegacyShrpi.PowerOffThreshold | shrpi/shrpi_device.py:108-109 | one transaction at 0x14; the value is the fixed 9.35 V times the register count over 256 or 65536, so below 9.35 V |
| LegacyShrpi.DcinVoltage | shrpi/shrpi_device.py:114-115 | one transaction at 0x20; the value is the fixed 32.1 V times the register count over 256 or 65536, so below 32.1 V |
| LegacyShrpi.SupercapVoltage | shrpi/shrpi_device.py:117-118 | one transaction at 0x21; the value is the fixed 9.35 V times the register count over 256 or 65536, so below 9.35 V |
| LegacyShrpi.Gated | shrpi/shrpi_device.py:120-132 | before a firmware version is set the prefix test raises; with a version not starting `"2."` there is no value and no transaction; otherwise one transaction at the register, succeeding iff it holds enough bytes, with the value scale × count over 256 or 65536 |
| LegacyShrpi.InputCurrent | shrpi/shrpi_device.py:120-125 | a value exists only on `"2."` firmware and is the fixed 2.5 A times the register count over 256 or 65536; other firmware gives no value and no transaction |
| LegacyShrpi.Temperature | shrpi/shrpi_device.py:127-132 | a value exists only on `"2."` firmware and is the fixed 512 K times the register count over 256 or 65536; other firmware gives no value and no transaction |
| LegacyShrpi.WordModeSticks | shrpi/shrpi_device.py:64-67 | after `"2."` firmware has been set, later versions never bring back byte reads |
| LegacyShrpi.En5vState | shrpi/shrpi_device.py:99-100 | the raw register byte, not a truth value |
| LegacyShrpi.SetWatchdogTimeout | shrpi/shrpi_device.py:102-103 | always the byte write of `int(10*t)` to 0x12 |
| LegacyShrpi.WatchdogMatchesByteFirmware | shrpi/shrpi_device.py:102-103 | the write equals the current driver's on byte-watchdog devices and differs from it where that driver writes milliseconds |
| SailorHat.HardwareVersion | sailor_hat/sailor_hat_device.py:41-42 | one byte read of 0x01; succeeds iff the register answers, and returns its byte unchanged |
| SailorHat.FirmwareVersion | sailor_hat/sailor_hat_device.py:44-45 | one byte read of 0x02; succeeds iff the register answers, and returns its byte unchanged |
| SailorHat.SentinelIsReportedRaw | sailor_hat/sailor_hat_device.py:41-45 | a 0xFF version byte is reported as 255 after one read, where the newer probe goes on to read the block |
| SailorHat.PowerOnThreshold | sailor_hat/sailor_hat_device.py:50-51 | one read of 0x13; the value is 2.8/256 V per count, within [0, 2.8·255/256] |
| SailorHat.PowerOffThreshold | sailor_hat/sailor_hat_device.py:53-54 | one read of 0x14; the value is 2.8/256 V per count, within [0, 2.8·255/256] |
| SailorHat.DcinVoltage | sailor_hat/sailor_hat_device.py:59-60 | one read of 0x20; the value is 32 V × count / 256, within [0, 32·255/256] |
| SailorHat.SupercapVoltage | sailor_hat/sailor_hat_device.py:62-63 | one read of 0x21; the value is 2.8 V × count / 256, within [0, 2.8·255/256] |
| SailorHat.ThresholdsShareSupercapScale | sailor_hat/sailor_hat_device.py:50-63 | a threshold byte and an equal supercap byte read as the same voltage |
| SailorHat.DecodeState | sailor_hat/sailor_hat_device.py:9-23 | bytes 0 to 13 decode to the state with that code; every other byte fails |
| SailorHat.StatesArePrefix | sailor_hat/sailor_hat_device.py:9-23 | the 14 states agree with the first 14 of the newer enumeration; bytes 14 to 17 are known there and unknown here |
| SailorHat.State | sailor_hat/sailor_hat_device.py:56-57 | one read of 0x15; succeeds iff the byte is below 14, and then it is the code of the returned state |
| SailorHat.SetWatchdogTimeout | sailor_hat/sailor_hat_device.py:68-69 | the byte write of `int(10*t)` to 0x12, the same transaction as the legacy driver's |
| SailorHat.WatchdogStored | sailor_hat/sailor_hat_device.py:68-69 | a timeout below 25.6 s lands in the register as its whole number of deciseconds |

## Left out

- **I2C library calls**: opening and closing the bus for each call is not modelled. The legacy drivers' two-step reads (a pointer write, then a read with command 0) are modelled as one read at the register, with one point of failure instead of two.
- **Byte storage**: that written values are reduced to 8 bits is an assumption about the I2C library, which is not part of this model.
- **Concurrency**: asyncio scheduling, `asyncio.sleep(0.1)` and `asyncio.gather` are not modelled. The HTTP handlers' scheduled subprocesses appear only as the `tasks` of an answer.
- **Host commands**: a command's own exit status is not modelled. `Supervisor.Perform` treats `check_call(["sudo", poweroff])` as succeeding, although a failure would raise out of the loop.
- **Time and logging**: `time.time()` is the `now` argument, one per poll, although the source reads the clock separately in OK and in BLACKOUT. Logging is left out.
- **HTTP plumbing**: routing, the Unix socket, `chown`/`chmod` and the `run_http_server` setup (src/shrpi/server.py:192-227) are left out.
- **JSON and date parsing**: JSON body decoding and `arrow` date parsing are abstract. A sleep field is absent, unparsable (a 400), unsupported (an uncaught exception, a 500), or given as a number.
- **Other routes**: `get_root`, `get_version`, `get_config` and `get_values` are left out. The last three only gather the accessors that `GetState`, `GetConfigKey` and `GetValuesKey` already model, one after another.
- **`src/shrpi/daemon.py`**: this is argument parsing, socket-path checks, signal handling and wiring. It is cited only for the base-class construction at line 78.
- **Report and packaging scripts**: `src/shrpi/cli.py`, the two report scripts and the packaging metadata only print or configure.
- **Floating point**: IEEE rounding is not modelled; reals are exact. `Numeric.Trunc` is exact truncation.
- **Duplicated operations**: the legacy `request_shutdown`, `request__sleep`, `watchdog_elapsed` and `state` (the same 18-state enumeration), and the Sailor Hat's `request_shutdown`, `watchdog_elapsed` and `en5v_state`, issue the same transactions as `Protocol.RequestShutdown`, `Protocol.RequestSleep`, `Protocol.WatchdogElapsed`, `Protocol.State` and `LegacyShrpi.En5vState`. They are not defined a second time.
- Supervisor.Perform: states only that effects append writes and commands. What the effects write, and in what order, is stated per mode by `Supervisor.StartArmsWatchdog` (START) and `Supervisor.ShutdownOrder` (SHUTDOWN). These are the only modes with effects.

## Findings

| source | as written | input that shows it | evidently intended | confidence | as-written member | corrected member |
|---|---|---|---|---|---|---|
| shrpi/shrpi_device.py:35-36 | the constructor sets instance attributes `hardware_version` and `firmware_version` to `None`. Instance attributes are found before methods, so `dev.hardware_version()` calls `None` and raises `TypeError`. | any instance, for example the report script's `dev.hardware_version()` at shrpi/shrpi_i2c_report.py:9 | the call runs the method body, which probes the version registers and returns the version string | not executed | LegacyShrpi.CallVersion, LegacyShrpi.VersionMethodsAreShadowed | LegacyShrpi.ProbeHardware |
| src/shrpi/i2c.py:46-49 | the base class sets every full-scale value to 0.0, and src/shrpi/daemon.py:78 builds the daemon's device as a base-class instance. Every analog read is then 0.0 V, and every threshold write divides by zero. The consequence is latent: src/shrpi/daemon.py:134 passes three of the four arguments `run_http_server` requires, so the daemon raises before it starts the supervisor. | DC-in register 0xFF (about 32 V): the read gives 0.0, and a supervisor given that device enters BLACKOUT and later shuts the host down | build the device through the factory, which picks V1 or V2 with real full scales | not executed | Protocol.BaseAnalogIsDead, Supervisor.BaseDeviceBlacksOut | Protocol.Factory, Protocol.FactoryDcinIsLive, Supervisor.FactoryDeviceStaysPowered |

=== FILE: control.dfy ===
/** The request handlers of the daemon's HTTP interface. Each handler is a
    total function from the request and the bus to an answer: the status, the
    body, the bus afterwards, and the host commands it schedules. Scheduled
    commands start only after the handler has returned. An exception a handler
    does not catch becomes status 500, and commands scheduled before it still
    run. */
module Control {

  import opened Outcome
  import opened Numeric
  import opened Transport
  import P = Protocol
  import DS = DeviceStates
  import R = Registers

  /** The JSON values a request or an answer carries. */
  datatype Json =
    | Null
    | Boolean(b: bool)
    | Integer(i: int)
    | Number(x: real)
    | Text(s: string)
    | Structured                  // an array or an object

  datatype Body =
    | Empty
    | Value(v: Json)
    | Fields(fields: seq<(string, Json)>)
    | Message(text: string)

  datatype Answer = Answer(status: int, body: Body, bus: Bus, tasks: seq<Command>)

  const InternalError := 500

  /** A device call's failure becomes an internal error. */
  function Failed(bus: Bus, tasks: seq<Command>): Answer {
    Answer(InternalError, Empty, bus, tasks)
  }

  // ---------------------------------------------------------------------
  // GET /state

  function GetState(dev: P.Device, bus: Bus): (a: Answer)
    ensures Unchanged(bus, a.bus) && a.tasks == []
    ensures a.status == 200 || a.status == InternalError
    ensures a.status == 200 ==> a.body.Fields? && |a.body.fields| == 3
    ensures a.status == 200 ==>
      P.State(bus).res.Ok? && a.body.fields[0] == ("state", Text(DS.Name(P.State(bus).res.value)))
      && P.En5vState(P.State(bus).bus).res.Ok?
      && a.body.fields[1] == ("5v_output_enabled", Boolean(P.En5vState(P.State(bus).bus).res.value))
    ensures a.status == 200 ==>
      a.body.fields[2].0 == "watchdog_enabled"
      && P.WatchdogTimeout(dev, P.En5vState(P.State(bus).bus).bus).res.Ok?
      && a.body.fields[2].1 == Boolean(P.WatchdogTimeout(dev, P.En5vState(P.State(bus).bus).bus).res.value != 0.0)
  {
    var s := P.State(bus);
    if s.res.Err? then Failed(s.bus, []) else
    var e := P.En5vState(s.bus);
    if e.res.Err? then Failed(e.bus, []) else
    var w := P.WatchdogTimeout(dev, e.bus);
    if w.res.Err? then Failed(w.bus, []) else
    Answer(200, Fields([("state", Text(DS.Name(s.res.value))),
                        ("5v_output_enabled", Boolean(e.res.value)),
                        ("watchdog_enabled", Boolean(w.res.value != 0.0))]), w.bus, [])
  }

  /** On a device that answers, the watchdog is reported enabled exactly when
      its register holds a non-zero count, and the state is the register's
      name. */
  lemma WatchdogEnabledIff(dev: P.Device, bus: Bus)
    requires Reliable(bus)
    requires Holds(bus, R.State, 1) && bus.regs[R.State][0] < DS.Count
    requires Holds(bus, R.En5v, 1)
    requires Holds(bus, R.WatchdogTimeout, if P.WordWatchdog(dev) then 2 else 1)
    ensures var a := GetState(dev, bus);
            && a.status == 200
            && a.body.fields[0] == ("state", Text(DS.Name(DS.Decode(bus.regs[R.State][0]).value)))
            && a.body.fields[1] == ("5v_output_enabled", Boolean(bus.regs[R.En5v][0] != 0))
            && (a.body.fields[2].1 == Boolean(true) <==> P.WatchdogCount(dev, bus) != 0)
  {
  }

  // ---------------------------------------------------------------------
  // POST /shutdown

  /** Informs the device, then schedules the poweroff command line. */
  function PostShutdown(bus: Bus, poweroff: string): (a: Answer)
    ensures a.bus.log == bus.log + [ByteWrite(R.ShutdownCommand, R.CommandByte)]
    ensures a.status == 204 <==> Up(bus)
    ensures a.status == 204 ==> a.tasks == [Shell(poweroff)]
    ensures a.status != 204 ==> a.status == InternalError && a.tasks == []
  {
    var w := P.RequestShutdown(bus);
    if w.res.Err? then Failed(w.bus, [])
    else Answer(204, Empty, w.bus, [Shell(poweroff)])
  }

  // ---------------------------------------------------------------------
  // POST /sleep

  /** A request field: missing, rejected by its parser (a 400), failing in
      some other way (an uncaught exception), or given. */
  datatype Field<+T> = Absent | Unparsable | Unsupported | Given(value: T)

  /** `datetime` is the parsed instant in POSIX seconds; `delay` is the
      integer the field converts to. */
  datatype SleepRequest = SleepRequest(datetime: Field<real>, delay: Field<int>)

  /** The outcome of validating a sleep request. */
  datatype Verdict = Wake(timestamp: int) | BadRequest(reason: string) | Raised

  /** The wake timestamp a request asks for, at time now (POSIX seconds). */
  function WakeTimestamp(req: SleepRequest, now: real): (v: Verdict)
    ensures req.datetime.Given? ==> (v.Wake? <==> req.datetime.value >= now)
    ensures req.datetime.Absent? && req.delay.Given? ==> (v.Wake? <==> req.delay.value >= 0)
    ensures req.datetime.Absent? && req.delay.Absent? ==> v == Wake(0)
    ensures req.datetime.Given? && v.Wake? ==> v.timestamp == Trunc(req.datetime.value)
    ensures req.datetime.Absent? && req.delay.Given? && v.Wake? ==> v.timestamp == Trunc(now) + req.delay.value
    ensures v.Wake? && (req.datetime.Given? || req.delay.Given?) ==> v.timestamp >= Trunc(now)
    ensures v.Raised? <==> req.datetime.Unsupported? || (req.datetime.Absent? && req.delay.Unsupported?)
    ensures v.BadRequest? <==>
      || (req.datetime.Given? && req.datetime.value < now)
      || req.datetime.Unparsable?
      || (req.datetime.Absent? && (req.delay.Unparsable? || (req.delay.Given? && req.delay.value < 0)))
  {
    match req.datetime
    case Given(t) =>
      if t < now then BadRequest("datetime must be in the future")
      else
        TruncMonotone(now, t);
        Wake(Trunc(t))
    case Unparsable => BadRequest("Invalid datetime format")
    case Unsupported => Raised
    case Absent =>
      match req.delay
      case Given(d) =>
        if d < 0 then BadRequest("delay must be positive") else Wake(Trunc(now) + d)
      case Unparsable => BadRequest("delay must be an integer")
      case Unsupported => Raised
      case Absent => Wake(0)
  }

  /** Schedules the RTC alarm, asks the device to sleep, then schedules a
      regular shutdown. */
  function PostSleep(bus: Bus, req: SleepRequest, now: real): (a: Answer)
    ensures a.status == 400 <==> WakeTimestamp(req, now).BadRequest?
    ensures a.status == 400 ==> a.bus == bus && a.tasks == []
    ensures a.status == 204 ==>
      WakeTimestamp(req, now).Wake?
      && a.tasks == [RtcWake(WakeTimestamp(req, now).timestamp), ShutdownNow]
      && a.bus.log == bus.log + [ByteWrite(R.SleepCommand, R.CommandByte)]
    ensures a.status in {204, 400, InternalError}
    ensures a.status == 204 <==> WakeTimestamp(req, now).Wake? && Up(bus)
  {
    match WakeTimestamp(req, now)
    case BadRequest(reason) => Answer(400, Message(reason), bus, [])
    case Raised => Failed(bus, [])
    case Wake(ts) =>
      var alarm := [RtcWake(ts)];
      var w := P.RequestSleep(bus);
      if w.res.Err? then Failed(w.bus, alarm)
      else Answer(204, Empty, w.bus, alarm + [ShutdownNow])
  }

  /** A datetime decides alone: the delay field is then never looked at. */
  lemma DatetimeTakesPrecedence(t: real, d1: Field<int>, d2: Field<int>, bus: Bus, now: real)
    ensures PostSleep(bus, SleepRequest(Given(t), d1), now) == PostSleep(bus, SleepRequest(Given(t), d2), now)
  {
  }

  /** The boundaries are accepted: a datetime equal to now, and a delay of 0,
      both wake at the current second. */
  lemma BoundariesAccepted(now: real, bus: Bus)
    ensures WakeTimestamp(SleepRequest(Given(now), Absent), now) == Wake(Trunc(now))
    ensures WakeTimestamp(SleepRequest(Absent, Given(0)), now) == Wake(Trunc(now))
  {
  }

  /** The alarm is scheduled before the device is asked to sleep, so a failing
      device write still leaves the alarm to run. */
  lemma AlarmOutlivesDeviceFailure(bus: Bus, req: SleepRequest, now: real)
    requires WakeTimestamp(req, now).Wake? && !Up(bus)
    ensures var a := PostSleep(bus, req, now);
            a.status == InternalError && a.tasks == [RtcWake(WakeTimestamp(req, now).timestamp)]
  {
  }

  // ---------------------------------------------------------------------
  // GET and PUT /config/{key}

  /** The register behind each configuration key. */
  const ConfigRegister: map<string, int> := map[
    "watchdog_timeout" := R.WatchdogTimeout,
    "power_on_threshold" := R.PowerOnThreshold,
    "power_off_threshold" := R.PowerOffThreshold,
    "led_brightness" := R.LedBrightness]

  /** The answer passes on what the accessor returned: its value as JSON
      with 200, or an internal error when it raised; the bus is the one the
      accessor left. */
  predicate Relays<T>(a: Answer, r: Reply<T>, json: T -> Json) {
    && a.bus == r.bus && a.tasks == []
    && (r.res.Ok? ==> a.status == 200 && a.body == Value(json(r.res.value)))
    && (r.res.Err? ==> a.status == InternalError)
  }

  /** Wraps a device reply as a JSON answer. */
  function Served<T>(r: Reply<T>, json: T -> Json): (a: Answer)
    ensures Relays(a, r, json)
  {
    match r.res
    case Ok(v) => Answer(200, Value(json(v)), r.bus, [])
    case Err(_) => Failed(r.bus, [])
  }

  function NumberJson(x: real): Json {
    Number(x)
  }

  function OptionalInteger(v: Option<int>): Json {
    match v
    case Some(n) => Integer(n)
    case None => Null
  }

  function OptionalNumber(v: Option<real>): Json {
    match v
    case Some(x) => Number(x)
    case None => Null
  }

  function GetConfigKey(dev: P.Device, bus: Bus, key: string): (a: Answer)
    ensures Unchanged(bus, a.bus) && a.tasks == []
    ensures key !in ConfigRegister ==> a == Answer(404, Empty, bus, [])
    ensures |a.bus.log| <= |bus.log| + 1
    ensures |a.bus.log| > |bus.log| ==> key in ConfigRegister && At(a.bus.log[|bus.log|], ConfigRegister[key])
    ensures key in ConfigRegister && (key != "led_brightness" || dev.gen == P.V2) ==> |a.bus.log| == |bus.log| + 1
    ensures key == "watchdog_timeout" ==> Relays(a, P.WatchdogTimeout(dev, bus), NumberJson)
    ensures key == "power_on_threshold" ==> Relays(a, P.PowerOnThreshold(dev, bus), NumberJson)
    ensures key == "power_off_threshold" ==> Relays(a, P.PowerOffThreshold(dev, bus), NumberJson)
    ensures key == "led_brightness" ==> Relays(a, P.LedBrightness(dev, bus), OptionalInteger)
  {
    if key == "watchdog_timeout" then Served(P.WatchdogTimeout(dev, bus), NumberJson)
    else if key == "power_on_threshold" then Served(P.PowerOnThreshold(dev, bus), NumberJson)
    else if key == "power_off_threshold" then Served(P.PowerOffThreshold(dev, bus), NumberJson)
    else if key == "led_brightness" then Served(P.LedBrightness(dev, bus), OptionalInteger)
    else Answer(404, Empty, bus, [])
  }

  /** Python counts booleans, integers and floats as numbers. */
  predicate IsNumber(data: Json) {
    data.Boolean? || data.Integer? || data.Number?
  }

  function NumberValue(data: Json): real
    requires IsNumber(data)
  {
    match data
    case Boolean(b) => if b then 1.0 else 0.0
    case Integer(i) => i as real
    case Number(x) => x
  }

  /** The answer acknowledges a device write: 204 when it succeeded, an
      internal error when it raised; the bus is the one the write left. */
  predicate Acknowledges(a: Answer, r: Reply<()>) {
    && a.bus == r.bus && a.tasks == []
    && (r.res.Ok? ==> a.status == 204)
    && (r.res.Err? ==> a.status == InternalError)
  }

  /** A device reply with no value as a 204 answer. */
  function Done(r: Reply<()>): (a: Answer)
    ensures Acknowledges(a, r)
  {
    if r.res.Ok? then Answer(204, Empty, r.bus, []) else Failed(r.bus, [])
  }

  function PutConfigKey(dev: P.Device, bus: Bus, key: string, data: Json): (a: Answer)
    ensures !IsNumber(data) ==> a == Answer(400, Message("Value must be a number"), bus, [])
    ensures IsNumber(data) && key !in ConfigRegister ==> a == Answer(404, Empty, bus, [])
    ensures a.tasks == [] && bus.log <= a.bus.log && |a.bus.log| <= |bus.log| + 1
    ensures |a.bus.log| > |bus.log| ==>
      key in ConfigRegister && IsWrite(a.bus.log[|bus.log|]) && At(a.bus.log[|bus.log|], ConfigRegister[key])
    ensures a.status == 204 ==> key in ConfigRegister && |a.bus.log| == |bus.log| + 1
    ensures IsNumber(data) && key == "watchdog_timeout" ==>
      && Acknowledges(a, P.SetWatchdogTimeout(dev, bus, NumberValue(data)))
      && (a.status == 204 <==> Up(bus))
    ensures IsNumber(data) && key == "power_on_threshold" ==>
      Acknowledges(a, P.SetPowerOnThreshold(dev, bus, NumberValue(data)))
    ensures IsNumber(data) && key == "power_off_threshold" ==>
      Acknowledges(a, P.SetPowerOffThreshold(dev, bus, NumberValue(data)))
    ensures IsNumber(data) && (key == "power_on_threshold" || key == "power_off_threshold") ==>
      (a.status == 204 <==> dev.profile.vcapMax != 0.0 && Up(bus))
    ensures IsNumber(data) && key == "led_brightness" ==>
      && Acknowledges(a, P.SetLedBrightness(dev, bus, Trunc(NumberValue(data))))
      && (a.status == 204 <==> dev.gen == P.V2 && Up(bus))
  {
    if !IsNumber(data) then Answer(400, Message("Value must be a number"), bus, [])
    else
      var x := NumberValue(data);
      if key == "watchdog_timeout" then Done(P.SetWatchdogTimeout(dev, bus, x))
      else if key == "power_on_threshold" then Done(P.SetPowerOnThreshold(dev, bus, x))
      else if key == "power_off_threshold" then Done(P.SetPowerOffThreshold(dev, bus, x))
      else if key == "led_brightness" then Done(P.SetLedBrightness(dev, bus, Trunc(x)))
      else Answer(404, Empty, bus, [])
  }

  /** A threshold put through the interface reads back through it within one
      encoding step below the value sent. */
  lemma PutThenGetThreshold(dev: P.Device, bus: Bus, key: string, x: real)
    requires key == "power_on_threshold" || key == "power_off_threshold"
    requires Reliable(bus) && 0.0 <= x < dev.profile.vcapMax
    ensures var put := PutConfigKey(dev, bus, key, Number(x));
            var get := GetConfigKey(dev, put.bus, key);
            && put.status == 204 && get.status == 200
            && get.body.v.Number?
            && get.body.v.x <= x < get.body.v.x + dev.profile.vcapMax / P.Steps(dev.analog) as real
  {
    P.ThresholdRoundTrip(dev, bus, x);
  }

  /** A watchdog timeout put through the interface reads back through it
      truncated to whole register ticks; zero, which disables the watchdog,
      reads back as zero. */
  lemma PutThenGetWatchdog(dev: P.Device, bus: Bus, x: real)
    requires Reliable(bus) && 0.0 <= x && x * P.TicksPerSecond(dev) < P.TickRange(dev) as real
    ensures var put := PutConfigKey(dev, bus, "watchdog_timeout", Number(x));
            var get := GetConfigKey(dev, put.bus, "watchdog_timeout");
            && put.status == 204 && get.status == 200
            && get.body.v.Number?
            && get.body.v.x <= x < get.body.v.x + 1.0 / P.TicksPerSecond(dev)
            && (x == 0.0 ==> get.body.v.x == 0.0)
  {
    P.WatchdogRoundTrip(dev, bus, x);
  }

  /** led_brightness is truncated toward zero before it reaches the device. */
  lemma LedIsTruncated(dev: P.Device, bus: Bus, x: real)
    requires dev.gen == P.V2
    ensures PutConfigKey(dev, bus, "led_brightness", Number(x)).bus.log
         == bus.log + [ByteWrite(R.LedBrightness, Trunc(x))]
  {
  }

  // ---------------------------------------------------------------------
  // GET /values/{key}

  /** The register behind each measurement key. */
  const ValueRegister: map<string, int> := map[
    "V_in" := R.DcinVoltage,
    "V_supercap" := R.SupercapVoltage,
    "I_in" := R.InputCurrent,
    "T_mcu" := R.Temperature]

  function GetValuesKey(dev: P.Device, bus: Bus, key: string): (a: Answer)
    ensures Unchanged(bus, a.bus) && a.tasks == []
    ensures key !in ValueRegister ==> a == Answer(404, Empty, bus, [])
    ensures |a.bus.log| <= |bus.log| + 1
    ensures |a.bus.log| > |bus.log| ==> key in ValueRegister && At(a.bus.log[|bus.log|], ValueRegister[key])
    ensures key in ValueRegister && (key == "V_in" || key == "V_supercap" || dev.gen == P.V2)
      ==> |a.bus.log| == |bus.log| + 1
    ensures key == "V_in" ==> Relays(a, P.DcinVoltage(dev, bus), NumberJson)
    ensures key == "V_supercap" ==> Relays(a, P.SupercapVoltage(dev, bus), NumberJson)
    ensures key == "I_in" ==> Relays(a, P.InputCurrent(dev, bus), OptionalNumber)
    ensures key == "T_mcu" ==> Relays(a, P.Temperature(dev, bus), OptionalNumber)
  {
    if key == "V_in" then Served(P.DcinVoltage(dev, bus), NumberJson)
    else if key == "V_supercap" then Served(P.SupercapVoltage(dev, bus), NumberJson)
    else if key == "I_in" then Served(P.InputCurrent(dev, bus), OptionalNumber)
    else if key == "T_mcu" then Served(P.Temperature(dev, bus), OptionalNumber)
    else Answer(404, Empty, bus, [])
  }

  /** Every known key is served by a read of its own register: with a device
      that answers, the read happens and succeeds. */
  lemma KnownKeysAreRead(dev: P.Device, bus: Bus, key: string)
    requires dev.gen == P.V2 && Reliable(bus)
    requires key in ValueRegister && Holds(bus, ValueRegister[key], 2)
    ensures var a := GetValuesKey(dev, bus, key);
            a.status == 200 && |a.bus.log| == |bus.log| + 1
  {
  }
}

=== FILE: device_states.dfy ===
/** The operating phase the device firmware reports in its state register. */
module DeviceStates {

  import opened Outcome

  /** The eighteen phases, in register-code order. */
  datatype DeviceState =
    | Begin | WaitForPowerOn
    | EnterPowerOn5vOff | PowerOn5vOff | EnterPowerOn5vOn | PowerOn5vOn
    | EnterPowerOff5vOn | PowerOff5vOn
    | EnterShutdown | Shutdown
    | EnterWatchdogReboot | WatchdogReboot
    | EnterOff | Off
    | EnterSleepShutdown | SleepShutdown | EnterSleep | Sleep

  const Count := 18

  /** The byte the firmware uses for each phase. */
  function Code(s: DeviceState): nat {
    match s
    case Begin => 0
    case WaitForPowerOn => 1
    case EnterPowerOn5vOff => 2
    case PowerOn5vOff => 3
    case EnterPowerOn5vOn => 4
    case PowerOn5vOn => 5
    case EnterPowerOff5vOn => 6
    case PowerOff5vOn => 7
    case EnterShutdown => 8
    case Shutdown => 9
    case EnterWatchdogReboot => 10
    case WatchdogReboot => 11
    case EnterOff => 12
    case Off => 13
    case EnterSleepShutdown => 14
    case SleepShutdown => 15
    case EnterSleep => 16
    case Sleep => 17
  }

  /** The member name the daemon reports. */
  function Name(s: DeviceState): string {
    match s
    case Begin => "BEGIN"
    case WaitForPowerOn => "WAIT_FOR_POWER_ON"
    case EnterPowerOn5vOff => "ENTER_POWER_ON_5V_OFF"
    case PowerOn5vOff => "POWER_ON_5V_OFF"
    case EnterPowerOn5vOn => "ENTER_POWER_ON_5V_ON"
    case PowerOn5vOn => "POWER_ON_5V_ON"
    case EnterPowerOff5vOn => "ENTER_POWER_OFF_5V_ON"
    case PowerOff5vOn => "POWER_OFF_5V_ON"
    case EnterShutdown => "ENTER_SHUTDOWN"
    case Shutdown => "SHUTDOWN"
    case EnterWatchdogReboot => "ENTER_WATCHDOG_REBOOT"
    case WatchdogReboot => "WATCHDOG_REBOOT"
    case EnterOff => "ENTER_OFF"
    case Off => "OFF"
    case EnterSleepShutdown => "ENTER_SLEEP_SHUTDOWN"
    case SleepShutdown => "SLEEP_SHUTDOWN"
    case EnterSleep => "ENTER_SLEEP"
    case Sleep => "SLEEP"
  }

  /** Looking a byte up in the enumeration: a byte outside it is an error,
      never a default phase. */
  function Decode(raw: int): (r: Result<DeviceState>)
    ensures r.Ok? <==> 0 <= raw < Count
    ensures r.Ok? ==> Code(r.value) == raw
    ensures r.Err? ==> r.fault == UnknownState(raw)
  {
    if raw == 0 then Ok(Begin)
    else if raw == 1 then Ok(WaitForPowerOn)
    else if raw == 2 then Ok(EnterPowerOn5vOff)
    else if raw == 3 then Ok(PowerOn5vOff)
    else if raw == 4 then Ok(EnterPowerOn5vOn)
    else if raw == 5 then Ok(PowerOn5vOn)
    else if raw == 6 then Ok(EnterPowerOff5vOn)
    else if raw == 7 then Ok(PowerOff5vOn)
    else if raw == 8 then Ok(EnterShutdown)
    else if raw == 9 then Ok(Shutdown)
    else if raw == 10 then Ok(EnterWatchdogReboot)
    else if raw == 11 then Ok(WatchdogReboot)
    else if raw == 12 then Ok(EnterOff)
    else if raw == 13 then Ok(Off)
    else if raw == 14 then Ok(EnterSleepShutdown)
    else if raw == 15 then Ok(SleepShutdown)
    else if raw == 16 then Ok(EnterSleep)
    else if raw == 17 then Ok(Sleep)
    else Err(UnknownState(raw))
  }

  /** Every phase decodes from its own code, so the codes are distinct and
      all eighteen phases are reachable. */
  lemma DecodeCode(s: DeviceState)
    ensures Code(s) < Count
    ensures Decode(Code(s)) == Ok(s)
  {
  }
}

=== FILE: legacy_shrpi.dfy ===
/** The earlier stand-alone driver for the same device. It decodes versions
    by the same sentinel rule but keeps no cache, uses fixed scales whatever
    the hardware, reads words with the SMBus read-word transaction, and always
    writes the watchdog as a byte of deciseconds.
    Its constructor stores `None` in instance attributes named like the two
    version methods; Python finds instance attributes before methods, so the
    methods cannot be called through an instance. */
module LegacyShrpi {

  import opened Outcome
  import opened Numeric
  import opened Transport
  import opened Version
  import P = Protocol
  import R = Registers

  /** Full-scale values, the same for every hardware version. */
  const VcapMax: real := 9.35
  const DcinMax: real := 32.1
  const IMax: real := 2.5
  const TempMax: real := 512.0

  /** The two version attributes (`None` until set) and the analog encoding
      in force. */
  datatype Legacy = Legacy(hardware: Option<string>, firmware: Option<string>, analog: P.Encoding)

  datatype LegacyCall<+T> = LegacyCall(res: Result<T>, dev: Legacy, bus: Bus)

  /** The constructor touches no register. */
  const Fresh: Legacy := Legacy(None, None, P.ByteScaled)

  // ---------------------------------------------------------------------
  // Attribute lookup

  /** The instance attribute named `name`, if the instance has one. */
  function InstanceAttribute(dev: Legacy, name: string): Option<Option<string>> {
    if name == "hardware_version" then Some(dev.hardware)
    else if name == "firmware_version" then Some(dev.firmware)
    else None
  }

  /** `dev.hardware_version()` or `dev.firmware_version()` as written: the
      lookup finds the instance attribute, `None` or a string, and calling it
      raises before any transaction. */
  function CallVersion(dev: Legacy, bus: Bus, name: string): (r: LegacyCall<string>)
    requires name == "hardware_version" || name == "firmware_version"
    ensures r.bus == bus && r.dev == dev
    ensures r.res.Ok? <==> InstanceAttribute(dev, name).None?
  {
    match InstanceAttribute(dev, name)
    case Some(_) => LegacyCall(Err(NotCallable), dev, bus)
    case None =>
      if name == "hardware_version" then ProbeHardware(dev, bus) else ProbeFirmware(dev, bus)
  }

  /** Every instance carries both attributes, so the version methods are
      never reached through an instance, whatever the bus holds; the method
      bodies themselves decode a version from the same bus. */
  lemma VersionMethodsAreShadowed(dev: Legacy, bus: Bus, name: string)
    requires name == "hardware_version" || name == "firmware_version"
    requires Reliable(bus) && Holds(bus, R.LegacyHardwareVersion, 1)
    requires bus.regs[R.LegacyHardwareVersion][0] != Sentinel
    ensures CallVersion(dev, bus, name).res == Err(NotCallable)
    ensures ProbeHardware(dev, bus).res.Ok?
  {
  }

  // ---------------------------------------------------------------------
  // The version method bodies

  /** The hardware version method's body: probe, then store the string. */
  function ProbeHardware(dev: Legacy, bus: Bus): (r: LegacyCall<string>)
    ensures Unchanged(bus, r.bus)
    ensures |r.bus.log| > |bus.log| && r.bus.log[|bus.log|] == ByteRead(R.LegacyHardwareVersion)
    ensures r.res.Ok? ==> r.dev == dev.(hardware := Some(r.res.value)) && r.res.value != Unknown
    ensures r.res.Err? ==> r.dev == dev
  {
    var p := Probe(bus, R.LegacyHardwareVersion, R.HardwareVersionBlock);
    match p.res
    case Ok(v) => LegacyCall(Ok(v), dev.(hardware := Some(v)), p.bus)
    case Err(f) => LegacyCall(Err(f), dev, p.bus)
  }

  /** `set_firmware_version`: stores the string and switches to word reads
      on "2." firmware; nothing switches back. */
  function SetFirmwareVersion(dev: Legacy, version: string): (d: Legacy)
    ensures d.firmware == Some(version) && d.hardware == dev.hardware
    ensures d.analog == P.WordScaled <==> dev.analog == P.WordScaled || HasMajor(version, 2)
  {
    if HasMajor(version, 2) then dev.(firmware := Some(version), analog := P.WordScaled)
    else dev.(firmware := Some(version))
  }

  /** The firmware version method's body: probe, then set the version. */
  function ProbeFirmware(dev: Legacy, bus: Bus): (r: LegacyCall<string>)
    ensures Unchanged(bus, r.bus)
    ensures |r.bus.log| > |bus.log| && r.bus.log[|bus.log|] == ByteRead(R.LegacyFirmwareVersion)
    ensures r.res.Ok? ==> r.dev == SetFirmwareVersion(dev, r.res.value) && r.res.value != Unknown
    ensures r.res.Err? ==> r.dev == dev
  {
    var p := Probe(bus, R.LegacyFirmwareVersion, R.FirmwareVersionBlock);
    match p.res
    case Ok(v) => LegacyCall(Ok(v), SetFirmwareVersion(dev, v), p.bus)
    case Err(f) => LegacyCall(Err(f), dev, p.bus)
  }

  /** With no cache, a stored version never saves a transaction: the second
      probe reads the legacy register again and decodes the same string. */
  lemma NoVersionCache(dev: Legacy, bus: Bus)
    ensures var first := ProbeHardware(dev, bus);
            var second := ProbeHardware(first.dev, first.bus);
            && second.bus.log[|first.bus.log|] == ByteRead(R.LegacyHardwareVersion)
            && (Reliable(bus) ==> second.res == first.res)
  {
  }

  /** The legacy decode gives the same string as the current driver's first,
      uncached call. */
  lemma AgreesWithCurrentDriver(dev: Legacy, pdev: P.Device, bus: Bus)
    requires pdev.hardware == Unknown && pdev.firmware == Unknown
    ensures ProbeHardware(dev, bus).res == P.HardwareVersion(pdev, bus).res
    ensures ProbeFirmware(dev, bus).res == P.FirmwareVersion(pdev, bus).res
  {
  }

  // ---------------------------------------------------------------------
  // Measurements

  /** The count an analog register holds: one byte, or a word whose low
      byte comes first. */
  function RawOf(dev: Legacy, bus: Bus, reg: int): int
    requires reg in bus.regs && |bus.regs[reg]| >= P.Width(dev.analog)
  {
    var lo: int := bus.regs[reg][0];
    if dev.analog == P.ByteScaled then lo
    else
      var hi: int := bus.regs[reg][1];
      lo + 256 * hi
  }

  function ReadAnalog(dev: Legacy, bus: Bus, reg: int, scale: real): (r: Reply<real>)
    ensures Unchanged(bus, r.bus)
    ensures r.res.Ok? <==> Holds(bus, reg, P.Width(dev.analog))
    ensures r.res.Ok? ==> r.res.value == scale * RawOf(dev, bus, reg) as real / P.Steps(dev.analog) as real
    ensures dev.analog == P.ByteScaled ==> r.bus.log == bus.log + [ByteRead(reg)]
    ensures dev.analog == P.WordScaled ==> r.bus.log == bus.log + [WordRead(reg)]
    ensures r.res.Ok? && 0.0 <= scale ==> 0.0 <= r.res.value <= scale - scale / P.Steps(dev.analog) as real
  {
    match dev.analog
    case ByteScaled =>
      var b := ReadByte(bus, reg);
      (match b.res
       case Ok(raw) =>
         P.RawBound(P.ByteScaled, raw, scale);
         Reply(Ok(P.RawToAnalog(P.ByteScaled, raw, scale)), b.bus)
       case Err(f) => Reply(Err(f), b.bus))
    case WordScaled =>
      var w := ReadWordData(bus, reg);
      (match w.res
       case Ok(raw) =>
         P.RawBound(P.WordScaled, raw, scale);
         Reply(Ok(P.RawToAnalog(P.WordScaled, raw, scale)), w.bus)
       case Err(f) => Reply(Err(f), w.bus))
  }

  /** Byte reads agree with the current driver's at the same scale; word
      reads take the bytes in the opposite order, so [1, 0] is 1 here and
      256 there. */
  lemma ByteOrder(dev: Legacy, pdev: P.Device, bus: Bus, reg: int, scale: real)
    requires dev.analog == pdev.analog == P.ByteScaled
    ensures ReadAnalog(dev, bus, reg, scale).res == P.ReadAnalog(pdev, bus, reg, scale).res
    ensures Reliable(bus) && reg in bus.regs && bus.regs[reg] == [1, 0] ==>
      ReadWordData(bus, reg).res == Ok(1) && ReadWord(bus, reg).res == Ok(256)
  {
  }

  function PowerOnThreshold(dev: Legacy, bus: Bus): (r: Reply<real>)
    ensures Unchanged(bus, r.bus) && |r.bus.log| == |bus.log| + 1
    ensures At(r.bus.log[|bus.log|], R.PowerOnThreshold)
    ensures r.res.Ok? <==> Holds(bus, R.PowerOnThreshold, P.Width(dev.analog))
    ensures r.res.Ok? ==> r.res.value == VcapMax * RawOf(dev, bus, R.PowerOnThreshold) as real / P.Steps(dev.analog) as real
    ensures r.res.Ok? ==> 0.0 <= r.res.value < VcapMax
  {
    ReadAnalog(dev, bus, R.PowerOnThreshold, VcapMax)
  }

  function PowerOffThreshold(dev: Legacy, bus: Bus): (r: Reply<real>)
    ensures Unchanged(bus, r.bus) && |r.bus.log| == |bus.log| + 1
    ensures At(r.bus.log[|bus.log|], R.PowerOffThreshold)
    ensures r.res.Ok? <==> Holds(bus, R.PowerOffThreshold, P.Width(dev.analog))
    ensures r.res.Ok? ==> r.res.value == VcapMax * RawOf(dev, bus, R.PowerOffThreshold) as real / P.Steps(dev.analog) as real
    ensures r.res.Ok? ==> 0.0 <= r.res.value < VcapMax
  {
    ReadAnalog(dev, bus, R.PowerOffThreshold, VcapMax)
  }

  function DcinVoltage(dev: Legacy, bus: Bus): (r: Reply<real>)
    ensures Unchanged(bus, r.bus) && |r.bus.log| == |bus.log| + 1
    ensures At(r.bus.log[|bus.log|], R.DcinVoltage)
    ensures r.res.Ok? <==> Holds(bus, R.DcinVoltage, P.Width(dev.analog))
    ensures r.res.Ok? ==> r.res.value == DcinMax * RawOf(dev, bus, R.DcinVoltage) as real / P.Steps(dev.analog) as real
    ensures r.res.Ok? ==> 0.0 <= r.res.value < DcinMax
  {
    ReadAnalog(dev, bus, R.DcinVoltage, DcinMax)
  }

  function SupercapVoltage(dev: Legacy, bus: Bus): (r: Reply<real>)
    ensures Unchanged(bus, r.bus) && |r.bus.log| == |bus.log| + 1
    ensures At(r.bus.log[|bus.log|], R.SupercapVoltage)
    ensures r.res.Ok? <==> Holds(bus, R.SupercapVoltage, P.Width(dev.analog))
    ensures r.res.Ok? ==> r.res.value == VcapMax * RawOf(dev, bus, R.SupercapVoltage) as real / P.Steps(dev.analog) as real
    ensures r.res.Ok? ==> 0.0 <= r.res.value < VcapMax
  {
    ReadAnalog(dev, bus, R.SupercapVoltage, VcapMax)
  }

  /** Current and temperature exist only on "2." firmware; before the
      firmware version is set the attribute is `None`, and the prefix test
      on it raises. */
  function Gated(dev: Legacy, bus: Bus, reg: int, scale: real): (r: Reply<Option<real>>)
    ensures dev.firmware.None? ==> r == Reply(Err(NoAttribute), bus)
    ensures dev.firmware.Some? && !HasMajor(dev.firmware.value, 2) ==> r == Reply(Ok(None), bus)
    ensures dev.firmware.Some? && HasMajor(dev.firmware.value, 2) ==>
      Unchanged(bus, r.bus) && |r.bus.log| == |bus.log| + 1 && At(r.bus.log[|bus.log|], reg)
      && (r.res.Ok? && 0.0 < scale ==> r.res.value.Some? && 0.0 <= r.res.value.value < scale)
      && (r.res.Ok? <==> Holds(bus, reg, P.Width(dev.analog)))
      && (r.res.Ok? ==> r.res.value == Some(scale * RawOf(dev, bus, reg) as real / P.Steps(dev.analog) as real))
  {
    match dev.firmware
    case None => Reply(Err(NoAttribute), bus)
    case Some(v) =>
      if !HasMajor(v, 2) then Reply(Ok(None), bus)
      else
        var a := ReadAnalog(dev, bus, reg, scale);
        match a.res
        case Ok(x) =>
          assert x == scale * RawOf(dev, bus, reg) as real / P.Steps(dev.analog) as real;
          Reply(Ok(Some(x)), a.bus)
        case Err(f) => Reply(Err(f), a.bus)
  }

  function InputCurrent(dev: Legacy, bus: Bus): (r: Reply<Option<real>>)
    ensures dev.firmware.None? ==> r.res == Err(NoAttribute)
    ensures r.res.Ok? && r.res.value.Some? ==> HasMajor(dev.firmware.value, 2) && 0.0 <= r.res.value.value < IMax
    ensures dev.firmware.Some? && !HasMajor(dev.firmware.value, 2) ==> r == Reply(Ok(None), bus)
    ensures r.res.Ok? && r.res.value.Some? ==>
      Holds(bus, R.InputCurrent, P.Width(dev.analog))
      && r.res.value.value == IMax * RawOf(dev, bus, R.InputCurrent) as real / P.Steps(dev.analog) as real
  {
    Gated(dev, bus, R.InputCurrent, IMax)
  }

  function Temperature(dev: Legacy, bus: Bus): (r: Reply<Option<real>>)
    ensures dev.firmware.None? ==> r.res == Err(NoAttribute)
    ensures r.res.Ok? && r.res.value.Some? ==> HasMajor(dev.firmware.value, 2) && 0.0 <= r.res.value.value < TempMax
    ensures dev.firmware.Some? && !HasMajor(dev.firmware.value, 2) ==> r == Reply(Ok(None), bus)
    ensures r.res.Ok? && r.res.value.Some? ==>
      Holds(bus, R.Temperature, P.Width(dev.analog))
      && r.res.value.value == TempMax * RawOf(dev, bus, R.Temperature) as real / P.Steps(dev.analog) as real
  {
    Gated(dev, bus, R.Temperature, TempMax)
  }

  /** Once "2." firmware has been set the measurements read word registers
      and never fall back to byte reads, whatever version is set later; only
      the gate on the current version decides whether they read at all. */
  lemma {:induction false} WordModeSticks(dev: Legacy, later: seq<string>, bus: Bus)
    requires dev.firmware.Some? && dev.analog == P.WordScaled
    ensures var d := Replay(dev, later);
            d.analog == P.WordScaled
            && InputCurrent(d, bus).bus.log
               == if HasMajor(d.firmware.value, 2) then bus.log + [WordRead(R.InputCurrent)] else bus.log
    decreases |later|
  {
    if |later| > 0 {
      WordModeSticks(SetFirmwareVersion(dev, later[0]), later[1..], bus);
    }
  }

  /** The device after a sequence of `set_firmware_version` calls. */
  function Replay(dev: Legacy, versions: seq<string>): (d: Legacy)
    ensures |versions| > 0 ==> d.firmware == Some(versions[|versions| - 1])
    ensures |versions| == 0 ==> d == dev
    decreases |versions|
  {
    if |versions| == 0 then dev else Replay(SetFirmwareVersion(dev, versions[0]), versions[1..])
  }

  // ---------------------------------------------------------------------
  // Digital state and watchdog

  /** The raw 5 V output register, not converted to a truth value. */
  function En5vState(bus: Bus): (r: Reply<int>)
    ensures Unchanged(bus, r.bus) && r.bus.log == bus.log + [ByteRead(R.En5v)]
    ensures r.res.Ok? <==> Holds(bus, R.En5v, 1)
    ensures r.res.Ok? ==> r.res.value == bus.regs[R.En5v][0]
  {
    var b := ReadByte(bus, R.En5v);
    match b.res
    case Ok(raw) => Reply(Ok(raw as int), b.bus)
    case Err(f) => Reply(Err(f), b.bus)
  }

  /** Always a byte of deciseconds, whatever the firmware. */
  function SetWatchdogTimeout(bus: Bus, timeout: real): (r: Reply<()>)
    ensures r.bus.log == bus.log + [ByteWrite(R.WatchdogTimeout, Trunc(10.0 * timeout))]
    ensures r.res.Ok? <==> Up(bus)
  {
    WriteByte(bus, R.WatchdogTimeout, Trunc(10.0 * timeout))
  }

  /** The write matches the current driver's on byte firmware, and differs
      from it where the current driver writes milliseconds. */
  lemma WatchdogMatchesByteFirmware(pdev: P.Device, bus: Bus, timeout: real)
    ensures !P.WordWatchdog(pdev) ==> SetWatchdogTimeout(bus, timeout) == P.SetWatchdogTimeout(pdev, bus, timeout)
    ensures P.WordWatchdog(pdev) ==> SetWatchdogTimeout(bus, timeout).bus.log != P.SetWatchdogTimeout(pdev, bus, timeout).bus.log
  {
  }
}

=== FILE: numeric.dfy ===
/** Python's numeric conversions used by the daemon, written out over
    unbounded integers and exact reals. */
module Numeric {

  import opened Outcome

  /** `int(x)` on a float: truncation toward zero. */
  function Trunc(x: real): (n: int)
    ensures 0.0 <= x ==> n as real <= x < n as real + 1.0
    ensures x < 0.0 ==> n as real - 1.0 < x <= n as real
  {
    if x >= 0.0 then x.Floor else -((-x).Floor)
  }

  /** Truncation toward zero never reverses an order. */
  lemma TruncMonotone(x: real, y: real)
    requires x <= y
    ensures Trunc(x) <= Trunc(y)
  {
  }

  predicate IsDigit(c: char) {
    '0' <= c <= '9'
  }

  function Digit(d: nat): (c: char)
    requires d < 10
    ensures IsDigit(c) && (c - '0') as int == d
  {
    ('0' as int + d) as char
  }

  /** `str(n)` for a non-negative integer: decimal digits, no leading zero. */
  function DecimalString(n: nat): (s: string)
    ensures |s| >= 1
    ensures forall i :: 0 <= i < |s| ==> IsDigit(s[i])
    ensures |s| == 1 <==> n < 10
    decreases n
  {
    if n < 10 then [Digit(n)] else DecimalString(n / 10) + [Digit(n % 10)]
  }

  /** Reads back a non-empty string of decimal digits; anything else is None. */
  function ParseDecimal(s: string): Option<nat>
    decreases |s|
  {
    if |s| == 0 || !IsDigit(s[|s| - 1]) then None
    else if |s| == 1 then Some((s[0] - '0') as nat)
    else match ParseDecimal(s[..|s| - 1])
      case None => None
      case Some(p) => Some(10 * p + (s[|s| - 1] - '0') as nat)
  }

  /** Decimal rendering loses nothing: parsing it gives the number back. */
  lemma {:induction false} ParseDecimalString(n: nat)
    ensures ParseDecimal(DecimalString(n)) == Some(n)
    decreases n
  {
    if n >= 10 {
      var s := DecimalString(n);
      ParseDecimalString(n / 10);
      assert s[..|s| - 1] == DecimalString(n / 10);
    }
  }
}

=== FILE: outcome.dfy ===
/** Failure-carrying results shared by every layer of the model.

    The daemon reports failures by raising Python exceptions; `Fault` names
    each exception the modelled code raises or lets through, by what it means.
 */
module Outcome {

  datatype Option<+T> = None | Some(value: T)

  datatype Fault =
    | BusFault                // OSError from the bus library: device absent, short read
    | UnknownState(raw: int)  // ValueError from decoding a state byte the enumeration lacks
    | NotImplemented          // NotImplementedError: capability absent on this device class
    | ZeroDivision            // ZeroDivisionError: analog write against a scale of 0.0
    | NotCallable             // TypeError: calling an attribute that holds a plain value
    | NoAttribute             // AttributeError: a string method looked up on None
    | DeviceNotFound          // DeviceNotFoundError raised by the device factory

  datatype Result<+T> = Ok(value: T) | Err(fault: Fault)
}

=== FILE: protocol.dfy ===
/** The device driver of the current daemon: version detection and caching,
    the choice between byte- and word-encoded registers, fixed-point analog
    scaling, the watchdog, the state register, commands, the per-generation
    capabilities and the factory that picks a generation. */
module Protocol {

  import opened Outcome
  import opened Numeric
  import opened Transport
  import opened Version
  import opened DeviceStates
  import R = Registers

  /** The class the driver instantiated: the base class or one of the two
      hardware generations. */
  datatype Generation = Base | V1 | V2

  /** Analog registers hold one byte (steps of 1/256 of the scale) or one
      big-endian word (steps of 1/65536 of the scale). */
  datatype Encoding = ByteScaled | WordScaled

  /** Full-scale values of the analog quantities. */
  datatype Profile = Profile(vcapMax: real, dcinMax: real, iMax: real, tempMax: real)

  /** A driver instance: its class, the cached version strings ("Unknown"
      until probed), the analog encoding in force and its scales. */
  datatype Device = Device(gen: Generation, hardware: string, firmware: string, analog: Encoding, profile: Profile)

  /** A call that may also update the device's caches. */
  datatype Call<+T> = Call(res: Result<T>, dev: Device, bus: Bus)

  /** The scales each class ends up with; the base class keeps all of them at 0.0. */
  function ProfileOf(gen: Generation): Profile {
    match gen
    case Base => Profile(0.0, 0.0, 0.0, 0.0)
    case V1 => Profile(2.75, 32.1, 0.0, 0.0)
    case V2 => Profile(9.35, 32.1, 2.5, 512.0)
  }

  function Steps(e: Encoding): nat {
    match e
    case ByteScaled => 256
    case WordScaled => 0x1_0000
  }

  /** Firmware whose version string starts with "2." uses word encoding. */
  predicate WordFirmware(version: string) {
    HasMajor(version, 2)
  }

  /** Both versions are cached and the encoding agrees with the firmware. */
  predicate Probed(dev: Device) {
    && dev.hardware != Unknown
    && dev.firmware != Unknown
    && (dev.analog == WordScaled <==> WordFirmware(dev.firmware))
  }

  // ---------------------------------------------------------------------
  // Versions

  /** The hardware version: the cached string when there is one, with no bus
      transaction; otherwise a probe whose result is cached. */
  function HardwareVersion(dev: Device, bus: Bus): (r: Call<string>)
    ensures dev.hardware != Unknown ==> r == Call(Ok(dev.hardware), dev, bus)
    ensures dev.hardware == Unknown ==> |r.bus.log| > |bus.log| && r.bus.log[|bus.log|] == ByteRead(R.LegacyHardwareVersion)
    ensures dev.hardware == Unknown ==>
      var p := Probe(bus, R.LegacyHardwareVersion, R.HardwareVersionBlock);
      r.res == p.res && r.bus == p.bus
    ensures r.res.Ok? ==> r.dev.hardware == r.res.value != Unknown
    ensures r.res.Err? ==> r.dev == dev
    ensures r.dev.(hardware := dev.hardware) == dev
    ensures Unchanged(bus, r.bus)
  {
    if dev.hardware != Unknown then Call(Ok(dev.hardware), dev, bus)
    else
      var p := Probe(bus, R.LegacyHardwareVersion, R.HardwareVersionBlock);
      match p.res
      case Ok(v) => Call(Ok(v), dev.(hardware := v), p.bus)
      case Err(f) => Call(Err(f), dev, p.bus)
  }

  /** Caching a firmware version switches analog access to word encoding when
      it starts with "2."; nothing ever switches it back. */
  function SetFirmwareVersion(dev: Device, version: string): (d: Device)
    ensures d.firmware == version
    ensures d.analog == WordScaled <==> dev.analog == WordScaled || WordFirmware(version)
    ensures d.(firmware := dev.firmware, analog := dev.analog) == dev
  {
    if WordFirmware(version) then dev.(firmware := version, analog := WordScaled)
    else dev.(firmware := version)
  }

  /** The firmware version, cached like the hardware version. */
  function FirmwareVersion(dev: Device, bus: Bus): (r: Call<string>)
    ensures dev.firmware != Unknown ==> r == Call(Ok(dev.firmware), dev, bus)
    ensures dev.firmware == Unknown ==> |r.bus.log| > |bus.log| && r.bus.log[|bus.log|] == ByteRead(R.LegacyFirmwareVersion)
    ensures dev.firmware == Unknown ==>
      var p := Probe(bus, R.LegacyFirmwareVersion, R.FirmwareVersionBlock);
      r.res == p.res && r.bus == p.bus
    ensures r.res.Ok? ==> r.dev.firmware == r.res.value != Unknown
    ensures r.res.Err? ==> r.dev == dev
    ensures r.res.Ok? && dev.firmware == Unknown ==> r.dev == SetFirmwareVersion(dev, r.res.value)
    ensures Unchanged(bus, r.bus)
  {
    if dev.firmware != Unknown then Call(Ok(dev.firmware), dev, bus)
    else
      var p := Probe(bus, R.LegacyFirmwareVersion, R.FirmwareVersionBlock);
      match p.res
      case Ok(v) => Call(Ok(v), SetFirmwareVersion(dev, v), p.bus)
      case Err(f) => Call(Err(f), dev, p.bus)
  }

  /** A second version query returns what the first returned and touches
      neither the bus nor the device. */
  lemma VersionCallIsCached(dev: Device, bus: Bus)
    ensures var h := HardwareVersion(dev, bus);
            h.res.Ok? ==> HardwareVersion(h.dev, h.bus) == Call(h.res, h.dev, h.bus)
    ensures var f := FirmwareVersion(dev, bus);
            f.res.Ok? ==> FirmwareVersion(f.dev, f.bus) == Call(f.res, f.dev, f.bus)
  {
  }

  /** On a device that has probed once, the encoding can no longer change:
      every version query leaves the device as it was. */
  lemma {:induction false} ProbedIsStable(dev: Device, bus: Bus)
    requires Probed(dev)
    ensures HardwareVersion(dev, bus).dev == dev && FirmwareVersion(dev, bus).dev == dev
    ensures HardwareVersion(dev, bus).bus == bus && FirmwareVersion(dev, bus).bus == bus
  {
  }

  /** Construction probes the hardware version, then the firmware version; a
      bus failure in either aborts it. */
  function New(gen: Generation, bus: Bus): (r: Call<()>)
    ensures Unchanged(bus, r.bus)
    ensures r.dev.gen == gen && r.dev.profile == ProfileOf(gen)
    ensures r.res.Ok? ==> Probed(r.dev)
    ensures |r.bus.log| > |bus.log| && r.bus.log[|bus.log|] == ByteRead(R.LegacyHardwareVersion)
    ensures var h := Probe(bus, R.LegacyHardwareVersion, R.HardwareVersionBlock);
            var f := Probe(h.bus, R.LegacyFirmwareVersion, R.FirmwareVersionBlock);
            && (r.res.Ok? <==> h.res.Ok? && f.res.Ok?)
            && (r.res.Ok? ==> r.dev.hardware == h.res.value && r.dev.firmware == f.res.value)
  {
    var blank := Device(gen, Unknown, Unknown, ByteScaled, ProfileOf(gen));
    var h := HardwareVersion(blank, bus);
    if h.res.Err? then Call(Err(h.res.fault), h.dev, h.bus)
    else
      var f := FirmwareVersion(h.dev, h.bus);
      assert f.bus.log[|bus.log|] == h.bus.log[|bus.log|];
      if f.res.Err? then Call(Err(f.res.fault), f.dev, f.bus)
      else Call(Ok(()), f.dev, f.bus)
  }

  /** The factory builds a base-class instance to read the hardware version,
      then builds the generation that version names. A failure while building
      the final instance is reported as DeviceNotFound; a failure while
      building the first one passes through unchanged. */
  function Factory(bus: Bus): (r: Call<()>)
    ensures Unchanged(bus, r.bus)
    ensures r.res.Ok? ==> Probed(r.dev) && r.dev.gen != Base
    ensures r.res.Ok? ==> r.dev.profile == ProfileOf(r.dev.gen)
    ensures r.res.Err? ==> r.res.fault == BusFault || r.res.fault == DeviceNotFound
    ensures New(Base, bus).res.Err? ==> r.res == Err(BusFault)
    ensures New(Base, bus).res.Ok? && r.res.Err? ==> r.res.fault == DeviceNotFound
    ensures Reliable(bus) ==> (r.res.Ok? <==> New(Base, bus).res.Ok?)
  {
    var probe := New(Base, bus);
    if probe.res.Err? then Call(Err(probe.res.fault), probe.dev, probe.bus)
    else
      var hw := HardwareVersion(probe.dev, probe.bus);
      var gen := if HasMajor(hw.res.value, 1) then V1 else V2;
      var built := New(gen, hw.bus);
      if built.res.Err? then Call(Err(DeviceNotFound), built.dev, built.bus)
      else built
  }

  /** Factory picks the first generation exactly when the hardware major
      version is 1, as the version registers report it. */
  lemma FactoryGeneration(bus: Bus)
    ensures var r := Factory(bus);
            r.res.Ok? ==> (r.dev.gen == V1 <==> HasMajor(r.dev.hardware, 1))
    ensures var r := Factory(bus);
            var p := Probe(bus, R.LegacyHardwareVersion, R.HardwareVersionBlock);
            r.res.Ok? ==> p.res.Ok? && (r.dev.gen == V1 <==> Parse(p.res.value).value.major == 1)
  {
    var probe := New(Base, bus);
    var r := Factory(bus);
    if r.res.Ok? {
      var first := Probe(bus, R.LegacyHardwareVersion, R.HardwareVersionBlock);
      var hw := HardwareVersion(probe.dev, probe.bus);
      var gen := if HasMajor(hw.res.value, 1) then V1 else V2;
      var blank := Device(gen, Unknown, Unknown, ByteScaled, ProfileOf(gen));
      var second := Probe(hw.bus, R.LegacyHardwareVersion, R.HardwareVersionBlock);
      assert first.res.Ok?;
      assert hw.res.value == first.res.value;
      assert HardwareVersion(blank, hw.bus).res == second.res;
      assert second.res == first.res by {
        assert Unchanged(bus, hw.bus);
      }
      var v := Parse(first.res.value).value;
      HasMajorIff(v, 1);
    }
  }

  // ---------------------------------------------------------------------
  // Fixed-point analog values

  /** The physical value a raw register value stands for. */
  function RawToAnalog(e: Encoding, raw: int, scale: real): real {
    scale * raw as real / Steps(e) as real
  }

  /** The raw value written for a physical value: `int(steps * val / scale)`. */
  function AnalogToRaw(e: Encoding, val: real, scale: real): int
    requires scale != 0.0
  {
    Trunc(Steps(e) as real * val / scale)
  }

  /** Within range, writing then reading loses less than one step and never
      rounds up. */
  lemma {:induction false} AnalogCodec(e: Encoding, val: real, scale: real)
    requires 0.0 < scale && 0.0 <= val < scale
    ensures var raw := AnalogToRaw(e, val, scale);
            && 0 <= raw < Steps(e)
            && RawToAnalog(e, raw, scale) <= val < RawToAnalog(e, raw, scale) + scale / Steps(e) as real
  {
    var n := Steps(e) as real;
    ScaledBelow(n, val, scale);
    var raw := AnalogToRaw(e, val, scale);
    Unscale(n, scale, val, raw as real);
  }

  lemma ScaledBelow(n: real, val: real, scale: real)
    requires n > 0.0 && 0.0 < scale && 0.0 <= val < scale
    ensures 0.0 <= n * val / scale < n
  {
    var x := n * val / scale;
    assert x * scale == n * val;
    ScalePositive(n, val, scale);
    ScalePositive(n, 0.0, val);
    DivideOrdered(0.0, n * val, scale);
    if x >= n {
      ScalePositive(scale, n, x);
      assert false;
    }
  }

  lemma Unscale(n: real, scale: real, val: real, k: real)
    requires n > 0.0 && scale > 0.0
    requires k <= n * val / scale < k + 1.0
    ensures scale * k / n <= val < scale * k / n + scale / n
  {
    Below(n, scale, val, k);
    Above(n, scale, val, k + 1.0);
    assert scale * (k + 1.0) / n == scale * k / n + scale / n;
  }

  lemma Below(n: real, scale: real, val: real, k: real)
    requires n > 0.0 && scale > 0.0
    requires k <= n * val / scale
    ensures scale * k / n <= val
  {
    var m := scale / n;
    ScalePositive(m, k, n * val / scale);
    assert m * (n * val / scale) == val;
    assert m * k == scale * k / n;
  }

  lemma Above(n: real, scale: real, val: real, h: real)
    requires n > 0.0 && scale > 0.0
    requires n * val / scale < h
    ensures val < scale * h / n
  {
    var m := scale / n;
    ScalePositive(m, n * val / scale, h);
    assert m * (n * val / scale) == val;
    assert m * h == scale * h / n;
  }

  lemma SelfRatio(n: real, s: real)
    requires s != 0.0
    ensures n * s / s == n
  {
  }

  lemma ScalePositive(c: real, a: real, b: real)
    requires c > 0.0 && a <= b
    ensures c * a <= c * b
    ensures a < b ==> c * a < c * b
  {
  }

  lemma DivideOrdered(a: real, b: real, c: real)
    requires c > 0.0 && a <= b
    ensures a / c <= b / c
    ensures a < b ==> a / c < b / c
  {
  }

  /** Every analog value read lies between zero and one step below full scale. */
  lemma RawBound(e: Encoding, raw: int, scale: real)
    requires 0 <= raw < Steps(e)
    ensures 0.0 <= scale ==> 0.0 <= RawToAnalog(e, raw, scale) <= scale - scale / Steps(e) as real
  {
    if scale > 0.0 {
      FractionBound(scale, raw as real, Steps(e) as real);
    }
  }

  lemma FractionBound(s: real, k: real, n: real)
    requires s > 0.0 && n >= 1.0 && 0.0 <= k <= n - 1.0
    ensures 0.0 <= s * k / n <= s - s / n
  {
    ScalePositive(s, 0.0, k);
    ScalePositive(s, 0.0, n - 1.0 - k);
    assert s * (n - 1.0) - s * k == s * (n - 1.0 - k);
    DivideOrdered(0.0, s * k, n);
    DivideOrdered(s * k, s * (n - 1.0), n);
    assert s * (n - 1.0) / n == s - s / n;
  }

  /** `read_analog`: one transaction at reg in the encoding in force. */
  function ReadAnalog(dev: Device, bus: Bus, reg: int, scale: real): (r: Reply<real>)
    ensures Unchanged(bus, r.bus)
    ensures dev.analog == ByteScaled ==> r.bus.log == bus.log + [ByteRead(reg)]
    ensures dev.analog == WordScaled ==> r.bus.log == bus.log + [BlockRead(reg, 2)]
    ensures r.res.Ok? <==> Holds(bus, reg, Width(dev.analog))
    ensures r.res.Ok? && 0.0 <= scale ==> 0.0 <= r.res.value <= scale - scale / Steps(dev.analog) as real
  {
    match dev.analog
    case ByteScaled =>
      var b := ReadByte(bus, reg);
      (match b.res
       case Ok(raw) =>
         RawBound(ByteScaled, raw, scale);
         Reply(Ok(RawToAnalog(ByteScaled, raw, scale)), b.bus)
       case Err(f) => Reply(Err(f), b.bus))
    case WordScaled =>
      var w := ReadWord(bus, reg);
      (match w.res
       case Ok(raw) =>
         RawBound(WordScaled, raw, scale);
         Reply(Ok(RawToAnalog(WordScaled, raw, scale)), w.bus)
       case Err(f) => Reply(Err(f), w.bus))
  }

  /** `write_analog`: a zero scale fails before any transaction; otherwise one
      write at reg in the encoding in force, with no range check on the value. */
  function WriteAnalog(dev: Device, bus: Bus, reg: int, val: real, scale: real): (r: Reply<()>)
    ensures scale == 0.0 ==> r == Reply(Err(ZeroDivision), bus)
    ensures scale != 0.0 ==> |r.bus.log| == |bus.log| + 1 && IsWrite(r.bus.log[|bus.log|])
    ensures scale != 0.0 ==> At(r.bus.log[|bus.log|], reg) && (r.res.Ok? <==> Up(bus))
  {
    if scale == 0.0 then Reply(Err(ZeroDivision), bus)
    else
      var raw := AnalogToRaw(dev.analog, val, scale);
      match dev.analog
      case ByteScaled => WriteByte(bus, reg, raw)
      case WordScaled => WriteWord(bus, reg, raw)
  }

  /** Writing an in-range analog value and reading it back yields it to within
      one step, never above it. */
  lemma AnalogWriteRead(dev: Device, bus: Bus, reg: int, val: real, scale: real)
    requires Reliable(bus) && 0.0 < scale && 0.0 <= val < scale
    ensures var w := WriteAnalog(dev, bus, reg, val, scale);
            var g := ReadAnalog(dev, w.bus, reg, scale);
            && w.res.Ok? && g.res.Ok?
            && g.res.value <= val < g.res.value + scale / Steps(dev.analog) as real
  {
    AnalogCodec(dev.analog, val, scale);
    var raw := AnalogToRaw(dev.analog, val, scale);
    match dev.analog {
      case ByteScaled => WriteThenReadByte(bus, reg, raw);
      case WordScaled => WriteThenReadWord(bus, reg, raw);
    }
  }

  function PowerOnThreshold(dev: Device, bus: Bus): (r: Reply<real>)
    ensures Unchanged(bus, r.bus) && |r.bus.log| == |bus.log| + 1
    ensures At(r.bus.log[|bus.log|], R.PowerOnThreshold) && !IsWrite(r.bus.log[|bus.log|])
    ensures r.res.Ok? <==> Holds(bus, R.PowerOnThreshold, Width(dev.analog))
    ensures r.res.Ok? ==> 0.0 <= r.res.value <= dev.profile.vcapMax || dev.profile.vcapMax < 0.0
  {
    ReadAnalog(dev, bus, R.PowerOnThreshold, dev.profile.vcapMax)
  }

  function SetPowerOnThreshold(dev: Device, bus: Bus, threshold: real): (r: Reply<()>)
    ensures dev.profile.vcapMax == 0.0 ==> r == Reply(Err(ZeroDivision), bus)
    ensures dev.profile.vcapMax != 0.0 ==>
      |r.bus.log| == |bus.log| + 1 && IsWrite(r.bus.log[|bus.log|]) && At(r.bus.log[|bus.log|], R.PowerOnThreshold)
  {
    WriteAnalog(dev, bus, R.PowerOnThreshold, threshold, dev.profile.vcapMax)
  }

  function PowerOffThreshold(dev: Device, bus: Bus): (r: Reply<real>)
    ensures Unchanged(bus, r.bus) && |r.bus.log| == |bus.log| + 1
    ensures At(r.bus.log[|bus.log|], R.PowerOffThreshold) && !IsWrite(r.bus.log[|bus.log|])
    ensures r.res.Ok? <==> Holds(bus, R.PowerOffThreshold, Width(dev.analog))
    ensures r.res.Ok? ==> 0.0 <= r.res.value <= dev.profile.vcapMax || dev.profile.vcapMax < 0.0
  {
    ReadAnalog(dev, bus, R.PowerOffThreshold, dev.profile.vcapMax)
  }

  function SetPowerOffThreshold(dev: Device, bus: Bus, threshold: real): (r: Reply<()>)
    ensures dev.profile.vcapMax == 0.0 ==> r == Reply(Err(ZeroDivision), bus)
    ensures dev.profile.vcapMax != 0.0 ==>
      |r.bus.log| == |bus.log| + 1 && IsWrite(r.bus.log[|bus.log|]) && At(r.bus.log[|bus.log|], R.PowerOffThreshold)
  {
    WriteAnalog(dev, bus, R.PowerOffThreshold, threshold, dev.profile.vcapMax)
  }

  /** A threshold set within [0, vcap_max) reads back within one step below it,
      on either register and in either encoding. */
  lemma ThresholdRoundTrip(dev: Device, bus: Bus, threshold: real)
    requires Reliable(bus) && 0.0 <= threshold < dev.profile.vcapMax
    ensures var w := SetPowerOnThreshold(dev, bus, threshold);
            var g := PowerOnThreshold(dev, w.bus);
            w.res.Ok? && g.res.Ok? && g.res.value <= threshold < g.res.value + dev.profile.vcapMax / Steps(dev.analog) as real
    ensures var w := SetPowerOffThreshold(dev, bus, threshold);
            var g := PowerOffThreshold(dev, w.bus);
            w.res.Ok? && g.res.Ok? && g.res.value <= threshold < g.res.value + dev.profile.vcapMax / Steps(dev.analog) as real
  {
    AnalogWriteRead(dev, bus, R.PowerOnThreshold, threshold, dev.profile.vcapMax);
    AnalogWriteRead(dev, bus, R.PowerOffThreshold, threshold, dev.profile.vcapMax);
  }

  /** No range check guards the thresholds: on byte firmware a threshold of
      exactly vcap_max encodes as 256, which the device stores as 0, and it
      reads back as 0.0 volts. */
  lemma ThresholdAtFullScaleWraps(dev: Device, bus: Bus)
    requires Reliable(bus) && dev.analog == ByteScaled && dev.profile.vcapMax > 0.0
    ensures var w := SetPowerOnThreshold(dev, bus, dev.profile.vcapMax);
            PowerOnThreshold(dev, w.bus).res == Ok(0.0)
  {
    var scale := dev.profile.vcapMax;
    SelfRatio(256.0, scale);
    assert AnalogToRaw(ByteScaled, scale, scale) == 256;
    WriteThenReadByte(bus, R.PowerOnThreshold, 256);
  }

  // ---------------------------------------------------------------------
  // Watchdog

  /** The watchdog register is a word of milliseconds on the second
      generation or on "2." firmware, otherwise a byte of deciseconds. */
  predicate WordWatchdog(dev: Device) {
    dev.gen == V2 || WordFirmware(dev.firmware)
  }

  /** Register counts per second. */
  function TicksPerSecond(dev: Device): real {
    if WordWatchdog(dev) then 1000.0 else 10.0
  }

  /** The largest count the register holds, plus one. */
  function TickRange(dev: Device): nat {
    if WordWatchdog(dev) then 0x1_0000 else 256
  }

  /** The watchdog register's raw count, in the encoding the device uses. */
  function WatchdogCount(dev: Device, bus: Bus): int
    requires Holds(bus, R.WatchdogTimeout, if WordWatchdog(dev) then 2 else 1)
  {
    var cell := bus.regs[R.WatchdogTimeout];
    if WordWatchdog(dev) then WordOf(cell[..2]) else cell[0]
  }

  /** The timeout in seconds; 0 means disabled. */
  function WatchdogTimeout(dev: Device, bus: Bus): (r: Reply<real>)
    ensures Unchanged(bus, r.bus) && |r.bus.log| == |bus.log| + 1
    ensures At(r.bus.log[|bus.log|], R.WatchdogTimeout)
    ensures r.res.Ok? <==> Holds(bus, R.WatchdogTimeout, if WordWatchdog(dev) then 2 else 1)
    ensures r.res.Ok? ==> r.res.value == WatchdogCount(dev, bus) as real / TicksPerSecond(dev)
    ensures r.res.Ok? ==> 0.0 <= r.res.value < TickRange(dev) as real / TicksPerSecond(dev)
  {
    if WordWatchdog(dev) then
      var w := ReadWord(bus, R.WatchdogTimeout);
      match w.res
      case Ok(raw) => Reply(Ok(raw as real / 1000.0), w.bus)
      case Err(f) => Reply(Err(f), w.bus)
    else
      var b := ReadByte(bus, R.WatchdogTimeout);
      match b.res
      case Ok(raw) => Reply(Ok(raw as real / 10.0), b.bus)
      case Err(f) => Reply(Err(f), b.bus)
  }

  /** Sets the timeout in seconds, truncated to whole register counts. */
  function SetWatchdogTimeout(dev: Device, bus: Bus, timeout: real): (r: Reply<()>)
    ensures |r.bus.log| == |bus.log| + 1 && IsWrite(r.bus.log[|bus.log|])
    ensures At(r.bus.log[|bus.log|], R.WatchdogTimeout)
    ensures r.res.Ok? <==> Up(bus)
  {
    if WordWatchdog(dev) then WriteWord(bus, R.WatchdogTimeout, Trunc(1000.0 * timeout))
    else WriteByte(bus, R.WatchdogTimeout, Trunc(10.0 * timeout))
  }

  /** An in-range timeout reads back truncated to whole counts; zero, which
      disables the watchdog, reads back as exactly zero. */
  lemma WatchdogRoundTrip(dev: Device, bus: Bus, timeout: real)
    requires Reliable(bus) && 0.0 <= timeout && timeout * TicksPerSecond(dev) < TickRange(dev) as real
    ensures var w := SetWatchdogTimeout(dev, bus, timeout);
            var g := WatchdogTimeout(dev, w.bus);
            && w.res.Ok? && g.res.Ok?
            && g.res.value <= timeout < g.res.value + 1.0 / TicksPerSecond(dev)
            && (timeout == 0.0 ==> g.res.value == 0.0)
  {
    var t := TicksPerSecond(dev);
    var raw := Trunc(t * timeout);
    assert 0.0 <= t * timeout == timeout * t;
    assert 0 <= raw < TickRange(dev);
    TickBounds(t, timeout, raw as real);
    CountReadsBack(dev, bus, raw);
  }

  /** A count the register can hold, once stored, reads back as that many ticks. */
  lemma CountReadsBack(dev: Device, bus: Bus, raw: int)
    requires Reliable(bus) && 0 <= raw < TickRange(dev)
    ensures var w := if WordWatchdog(dev) then WriteWord(bus, R.WatchdogTimeout, raw)
                     else WriteByte(bus, R.WatchdogTimeout, raw);
            w.res.Ok? && WatchdogTimeout(dev, w.bus).res == Ok(raw as real / TicksPerSecond(dev))
  {
    if WordWatchdog(dev) {
      WriteThenReadWord(bus, R.WatchdogTimeout, raw);
    } else {
      WriteThenReadByte(bus, R.WatchdogTimeout, raw);
    }
  }

  /** A count truncated from t * timeout, divided back by t, lies within one
      tick below timeout. */
  lemma TickBounds(t: real, timeout: real, k: real)
    requires t > 0.0 && k <= t * timeout < k + 1.0
    ensures k / t <= timeout < k / t + 1.0 / t
  {
    DivideOrdered(k, t * timeout, t);
    DivideOrdered(t * timeout, k + 1.0, t);
    assert t * timeout / t == timeout;
    assert (k + 1.0) / t == k / t + 1.0 / t;
  }

  /** With no range check, 25.6 s on byte firmware encodes as 256 deciseconds,
      which the device stores as 0: the watchdog ends up disabled. */
  lemma WatchdogByteOverflow(dev: Device, bus: Bus)
    requires Reliable(bus) && !WordWatchdog(dev)
    ensures var w := SetWatchdogTimeout(dev, bus, 25.6);
            WatchdogTimeout(dev, w.bus).res == Ok(0.0)
  {
    WriteThenReadByte(bus, R.WatchdogTimeout, 256);
  }

  /** Time since the watchdog was last fed, in tenths of a second. */
  function WatchdogElapsed(bus: Bus): (r: Reply<real>)
    ensures Unchanged(bus, r.bus) && r.bus.log == bus.log + [ByteRead(R.WatchdogElapsed)]
    ensures r.res.Ok? <==> Holds(bus, R.WatchdogElapsed, 1)
    ensures r.res.Ok? ==> r.res.value == 0.1 * bus.regs[R.WatchdogElapsed][0] as real
    ensures r.res.Ok? ==> 0.0 <= r.res.value <= 25.5
  {
    var b := ReadByte(bus, R.WatchdogElapsed);
    match b.res
    case Ok(raw) => Reply(Ok(0.1 * raw as real), b.bus)
    case Err(f) => Reply(Err(f), b.bus)
  }

  // ---------------------------------------------------------------------
  // Digital state, measurements, commands

  function En5vState(bus: Bus): (r: Reply<bool>)
    ensures Unchanged(bus, r.bus) && r.bus.log == bus.log + [ByteRead(R.En5v)]
    ensures r.res.Ok? <==> Holds(bus, R.En5v, 1)
    ensures r.res.Ok? ==> (r.res.value <==> bus.regs[R.En5v][0] != 0)
  {
    var b := ReadByte(bus, R.En5v);
    match b.res
    case Ok(raw) => Reply(Ok(raw != 0), b.bus)
    case Err(f) => Reply(Err(f), b.bus)
  }

  /** The firmware's phase; a byte outside the enumeration is an error. */
  function State(bus: Bus): (r: Reply<DeviceState>)
    ensures Unchanged(bus, r.bus) && r.bus.log == bus.log + [ByteRead(R.State)]
    ensures r.res.Ok? <==> Holds(bus, R.State, 1) && bus.regs[R.State][0] < Count
    ensures r.res.Ok? ==> Code(r.res.value) == bus.regs[R.State][0]
    ensures Holds(bus, R.State, 1) && bus.regs[R.State][0] >= Count
      ==> r.res == Err(UnknownState(bus.regs[R.State][0]))
  {
    var b := ReadByte(bus, R.State);
    match b.res
    case Ok(raw) => Reply(Decode(raw), b.bus)
    case Err(f) => Reply(Err(f), b.bus)
  }

  function DcinVoltage(dev: Device, bus: Bus): (r: Reply<real>)
    ensures Unchanged(bus, r.bus) && |r.bus.log| == |bus.log| + 1
    ensures At(r.bus.log[|bus.log|], R.DcinVoltage) && !IsWrite(r.bus.log[|bus.log|])
    ensures r.res.Ok? <==> Holds(bus, R.DcinVoltage, Width(dev.analog))
    ensures r.res.Ok? ==> 0.0 <= r.res.value <= dev.profile.dcinMax || dev.profile.dcinMax < 0.0
  {
    ReadAnalog(dev, bus, R.DcinVoltage, dev.profile.dcinMax)
  }

  function SupercapVoltage(dev: Device, bus: Bus): (r: Reply<real>)
    ensures Unchanged(bus, r.bus) && |r.bus.log| == |bus.log| + 1
    ensures At(r.bus.log[|bus.log|], R.SupercapVoltage) && !IsWrite(r.bus.log[|bus.log|])
    ensures r.res.Ok? <==> Holds(bus, R.SupercapVoltage, Width(dev.analog))
    ensures r.res.Ok? ==> 0.0 <= r.res.value <= dev.profile.vcapMax || dev.profile.vcapMax < 0.0
  {
    ReadAnalog(dev, bus, R.SupercapVoltage, dev.profile.vcapMax)
  }

  /** Tells the device the host is shutting down: one command byte, no reply. */
  function RequestShutdown(bus: Bus): (r: Reply<()>)
    ensures r.bus.log == bus.log + [ByteWrite(R.ShutdownCommand, R.CommandByte)]
    ensures r.res.Ok? <==> Up(bus)
  {
    WriteByte(bus, R.ShutdownCommand, R.CommandByte)
  }

  /** Tells the device the host is going to sleep: one command byte, no reply. */
  function RequestSleep(bus: Bus): (r: Reply<()>)
    ensures r.bus.log == bus.log + [ByteWrite(R.SleepCommand, R.CommandByte)]
    ensures r.res.Ok? <==> Up(bus)
  {
    WriteByte(bus, R.SleepCommand, R.CommandByte)
  }

  // ---------------------------------------------------------------------
  // Per-generation capabilities

  /** LED brightness: the base class raises, the first generation has none,
      the second reads a byte. */
  function LedBrightness(dev: Device, bus: Bus): (r: Reply<Option<int>>)
    ensures dev.gen != V2 ==> r.bus == bus
    ensures dev.gen == Base ==> r.res == Err(NotImplemented)
    ensures dev.gen == V1 ==> r.res == Ok(None)
    ensures dev.gen == V2 ==> r.bus.log == bus.log + [ByteRead(R.LedBrightness)]
    ensures dev.gen == V2 ==> (r.res.Ok? <==> Holds(bus, R.LedBrightness, 1))
    ensures dev.gen == V2 && r.res.Ok? ==> r.res.value.Some? && 0 <= r.res.value.value < 256
  {
    match dev.gen
    case Base => Reply(Err(NotImplemented), bus)
    case V1 => Reply(Ok(None), bus)
    case V2 =>
      var b := ReadByte(bus, R.LedBrightness);
      match b.res
      case Ok(raw) => Reply(Ok(Some(raw)), b.bus)
      case Err(f) => Reply(Err(f), b.bus)
  }

  /** Setting the LED raises on anything but the second generation. */
  function SetLedBrightness(dev: Device, bus: Bus, brightness: int): (r: Reply<()>)
    ensures dev.gen != V2 ==> r == Reply(Err(NotImplemented), bus)
    ensures dev.gen == V2 ==> r.bus.log == bus.log + [ByteWrite(R.LedBrightness, brightness)]
  {
    if dev.gen != V2 then Reply(Err(NotImplemented), bus)
    else WriteByte(bus, R.LedBrightness, brightness)
  }

  /** On the second generation a brightness byte reads back unchanged. */
  lemma LedRoundTrip(dev: Device, bus: Bus, brightness: int)
    requires dev.gen == V2 && Reliable(bus) && 0 <= brightness < 256
    ensures var w := SetLedBrightness(dev, bus, brightness);
            w.res.Ok? && LedBrightness(dev, w.bus).res == Ok(Some(brightness))
  {
    WriteThenReadByte(bus, R.LedBrightness, brightness);
  }

  /** Input current: the base class raises, the first generation reports
      "not available", the second reads analog register 0x22 against i_max. */
  function InputCurrent(dev: Device, bus: Bus): (r: Reply<Option<real>>)
    ensures dev.gen != V2 ==> r.bus == bus
    ensures dev.gen == Base ==> r.res == Err(NotImplemented)
    ensures dev.gen == V1 ==> r.res == Ok(None)
    ensures dev.gen == V2 ==> |r.bus.log| == |bus.log| + 1 && At(r.bus.log[|bus.log|], R.InputCurrent)
    ensures dev.gen == V2 ==> !IsWrite(r.bus.log[|bus.log|])
    ensures dev.gen == V2 ==> (r.res.Ok? <==> Holds(bus, R.InputCurrent, Width(dev.analog)))
    ensures dev.gen == V2 && r.res.Ok? ==> r.res.value.Some?
  {
    match dev.gen
    case Base => Reply(Err(NotImplemented), bus)
    case V1 => Reply(Ok(None), bus)
    case V2 =>
      var a := ReadAnalog(dev, bus, R.InputCurrent, dev.profile.iMax);
      match a.res
      case Ok(v) => Reply(Ok(Some(v)), a.bus)
      case Err(f) => Reply(Err(f), a.bus)
  }

  /** MCU temperature in kelvin, gated like the input current; analog
      register 0x23 against temp_max. */
  function Temperature(dev: Device, bus: Bus): (r: Reply<Option<real>>)
    ensures dev.gen != V2 ==> r.bus == bus
    ensures dev.gen == Base ==> r.res == Err(NotImplemented)
    ensures dev.gen == V1 ==> r.res == Ok(None)
    ensures dev.gen == V2 ==> |r.bus.log| == |bus.log| + 1 && At(r.bus.log[|bus.log|], R.Temperature)
    ensures dev.gen == V2 ==> !IsWrite(r.bus.log[|bus.log|])
    ensures dev.gen == V2 ==> (r.res.Ok? <==> Holds(bus, R.Temperature, Width(dev.analog)))
    ensures dev.gen == V2 && r.res.Ok? ==> r.res.value.Some?
  {
    match dev.gen
    case Base => Reply(Err(NotImplemented), bus)
    case V1 => Reply(Ok(None), bus)
    case V2 =>
      var a := ReadAnalog(dev, bus, R.Temperature, dev.profile.tempMax);
      match a.res
      case Ok(v) => Reply(Ok(Some(v)), a.bus)
      case Err(f) => Reply(Err(f), a.bus)
  }

  /** On a second-generation device as the factory builds it, current and
      temperature read against full scales of 2.5 A and 512: a raw value
      stands for exactly its share of those scales. */
  lemma V2MeasurementScales(dev: Device, bus: Bus)
    requires dev.gen == V2 && dev.profile == ProfileOf(V2)
    ensures Holds(bus, R.InputCurrent, Width(dev.analog))
            ==> InputCurrent(dev, bus).res
                == Ok(Some(2.5 * RawOf(dev, bus, R.InputCurrent) as real / Steps(dev.analog) as real))
    ensures Holds(bus, R.Temperature, Width(dev.analog))
            ==> Temperature(dev, bus).res
                == Ok(Some(512.0 * RawOf(dev, bus, R.Temperature) as real / Steps(dev.analog) as real))
  {
    if Holds(bus, R.InputCurrent, Width(dev.analog)) {
      AnalogValue(dev, bus, R.InputCurrent, dev.profile.iMax);
    }
    if Holds(bus, R.Temperature, Width(dev.analog)) {
      AnalogValue(dev, bus, R.Temperature, dev.profile.tempMax);
    }
  }

  /** Bytes an analog read takes in an encoding. */
  function Width(e: Encoding): nat {
    if e == WordScaled then 2 else 1
  }

  /** The count an analog register holds: one byte, or a word whose high
      byte comes first. */
  function RawOf(dev: Device, bus: Bus, reg: int): int
    requires reg in bus.regs && |bus.regs[reg]| >= Width(dev.analog)
  {
    if dev.analog == ByteScaled then bus.regs[reg][0] else WordOf(bus.regs[reg][..2])
  }

  /** What an analog read returns when the register holds enough bytes. */
  lemma AnalogValue(dev: Device, bus: Bus, reg: int, scale: real)
    requires Holds(bus, reg, if dev.analog == WordScaled then 2 else 1)
    ensures dev.analog == ByteScaled ==>
      ReadAnalog(dev, bus, reg, scale).res == Ok(scale * bus.regs[reg][0] as real / 256.0)
    ensures dev.analog == WordScaled ==>
      ReadAnalog(dev, bus, reg, scale).res == Ok(scale * WordOf(bus.regs[reg][..2]) as real / 65536.0)
  {
  }

  // ---------------------------------------------------------------------
  // The base class's scales

  /** As written, the base class keeps every scale at 0.0: each analog
      quantity reads 0.0 whatever the register holds, and every threshold
      write fails with a division by zero before reaching the bus. */
  lemma BaseAnalogIsDead(bus: Bus, threshold: real)
    ensures var n := New(Base, bus);
            var d := DcinVoltage(n.dev, n.bus);
            d.res.Ok? ==> d.res.value == 0.0
    ensures var n := New(Base, bus);
            SetPowerOnThreshold(n.dev, n.bus, threshold) == Reply(Err(ZeroDivision), n.bus)
  {
  }

  /** A device as the factory returns it (any generation but the base one,
      with that generation's scales) reads DC-in against 32.1 V: the register
      value is no longer ignored. */
  lemma FactoryDcinIsLive(dev: Device, bus: Bus)
    requires dev.gen != Base && dev.profile == ProfileOf(dev.gen)
    ensures dev.profile.dcinMax == 32.1
    ensures Holds(bus, R.DcinVoltage, Width(dev.analog))
            ==> DcinVoltage(dev, bus).res
                == Ok(32.1 * RawOf(dev, bus, R.DcinVoltage) as real / Steps(dev.analog) as real)
  {
    if Holds(bus, R.DcinVoltage, Width(dev.analog)) {
      AnalogValue(dev, bus, R.DcinVoltage, dev.profile.dcinMax);
    }
  }
}

=== FILE: registers.dfy ===
/** The device's register map, in one place. The same addresses are used by
    the current driver (src/shrpi/i2c.py) and by both older drivers. */
module Registers {

  const LegacyHardwareVersion := 0x01
  const LegacyFirmwareVersion := 0x02
  const HardwareVersionBlock := 0x03
  const FirmwareVersionBlock := 0x04
  const En5v := 0x10
  const WatchdogTimeout := 0x12
  const PowerOnThreshold := 0x13
  const PowerOffThreshold := 0x14
  const State := 0x15
  const WatchdogElapsed := 0x16
  const LedBrightness := 0x17
  const DcinVoltage := 0x20
  const SupercapVoltage := 0x21
  const InputCurrent := 0x22
  const Temperature := 0x23
  const ShutdownCommand := 0x30
  const SleepCommand := 0x31

  /** The byte every command register is written with. */
  const CommandByte := 0x01
}

=== FILE: sailor_hat.dfy ===
/** The driver for the previous board. Every quantity is one byte register
    with a fixed scale, versions are the raw legacy bytes, and the state
    enumeration stops at OFF (14 members). */
module SailorHat {

  import opened Outcome
  import opened Numeric
  import opened Transport
  import Version
  import DS = DeviceStates
  import L = LegacyShrpi
  import R = Registers

  const DcinMax: real := 32.0
  const VcapMax: real := 2.8
  /** Volts per count of the threshold registers. */
  const RatioCoeff: real := 2.8 / 256.0

  /** The number of states this board knows. */
  const Count := 14

  /** A version register's raw byte: no sentinel, no block read. */
  function VersionByte(bus: Bus, reg: int): (r: Reply<int>)
    ensures Unchanged(bus, r.bus) && r.bus.log == bus.log + [ByteRead(reg)]
    ensures r.res.Ok? <==> Holds(bus, reg, 1)
    ensures r.res.Ok? ==> r.res.value == bus.regs[reg][0]
  {
    var b := ReadByte(bus, reg);
    match b.res
    case Ok(raw) => Reply(Ok(raw as int), b.bus)
    case Err(f) => Reply(Err(f), b.bus)
  }

  function HardwareVersion(bus: Bus): (r: Reply<int>)
    ensures r.bus.log == bus.log + [ByteRead(R.LegacyHardwareVersion)]
    ensures r.res.Ok? <==> Holds(bus, R.LegacyHardwareVersion, 1)
    ensures r.res.Ok? ==> r.res.value == bus.regs[R.LegacyHardwareVersion][0] && 0 <= r.res.value < 256
  {
    VersionByte(bus, R.LegacyHardwareVersion)
  }

  function FirmwareVersion(bus: Bus): (r: Reply<int>)
    ensures r.bus.log == bus.log + [ByteRead(R.LegacyFirmwareVersion)]
    ensures r.res.Ok? <==> Holds(bus, R.LegacyFirmwareVersion, 1)
    ensures r.res.Ok? ==> r.res.value == bus.regs[R.LegacyFirmwareVersion][0] && 0 <= r.res.value < 256
  {
    VersionByte(bus, R.LegacyFirmwareVersion)
  }

  /** Where the newer drivers see the 0xFF sentinel and go on to the version
      block, this board reports 255 after a single read. */
  lemma SentinelIsReportedRaw(bus: Bus)
    requires Holds(bus, R.LegacyHardwareVersion, 1)
    requires bus.regs[R.LegacyHardwareVersion][0] == Version.Sentinel
    ensures HardwareVersion(bus).res == Ok(255)
    ensures |Version.Probe(bus, R.LegacyHardwareVersion, R.HardwareVersionBlock).bus.log| == |bus.log| + 2
  {
  }

  /** A byte register scaled by volts per count. */
  function Scaled(bus: Bus, reg: int, perCount: real): (r: Reply<real>)
    requires perCount >= 0.0
    ensures Unchanged(bus, r.bus) && r.bus.log == bus.log + [ByteRead(reg)]
    ensures r.res.Ok? <==> Holds(bus, reg, 1)
    ensures r.res.Ok? ==> r.res.value == perCount * bus.regs[reg][0] as real
    ensures r.res.Ok? ==> 0.0 <= r.res.value <= perCount * 255.0
  {
    var b := ReadByte(bus, reg);
    match b.res
    case Ok(raw) =>
      var x: real := raw as real;
      ScaleBelow(perCount, x, 255.0);
      assert perCount * x <= perCount * 255.0;
      var v := perCount * x;
      assert 0.0 <= v <= perCount * 255.0;
      Reply(Ok(v), b.bus)
    case Err(f) => Reply(Err(f), b.bus)
  }

  lemma ScaleBelow(c: real, a: real, b: real)
    requires c >= 0.0 && 0.0 <= a <= b
    ensures 0.0 <= c * a <= c * b
  {
  }

  function PowerOnThreshold(bus: Bus): (r: Reply<real>)
    ensures r.bus.log == bus.log + [ByteRead(R.PowerOnThreshold)]
    ensures r.res.Ok? <==> Holds(bus, R.PowerOnThreshold, 1)
    ensures r.res.Ok? ==> r.res.value == RatioCoeff * bus.regs[R.PowerOnThreshold][0] as real
    ensures r.res.Ok? ==> 0.0 <= r.res.value <= VcapMax * 255.0 / 256.0
  {
    Scaled(bus, R.PowerOnThreshold, RatioCoeff)
  }

  function PowerOffThreshold(bus: Bus): (r: Reply<real>)
    ensures r.bus.log == bus.log + [ByteRead(R.PowerOffThreshold)]
    ensures r.res.Ok? <==> Holds(bus, R.PowerOffThreshold, 1)
    ensures r.res.Ok? ==> r.res.value == RatioCoeff * bus.regs[R.PowerOffThreshold][0] as real
    ensures r.res.Ok? ==> 0.0 <= r.res.value <= VcapMax * 255.0 / 256.0
  {
    Scaled(bus, R.PowerOffThreshold, RatioCoeff)
  }

  function DcinVoltage(bus: Bus): (r: Reply<real>)
    ensures r.bus.log == bus.log + [ByteRead(R.DcinVoltage)]
    ensures r.res.Ok? <==> Holds(bus, R.DcinVoltage, 1)
    ensures r.res.Ok? ==> r.res.value == DcinMax * bus.regs[R.DcinVoltage][0] as real / 256.0
    ensures r.res.Ok? ==> 0.0 <= r.res.value <= DcinMax * 255.0 / 256.0
  {
    Scaled(bus, R.DcinVoltage, DcinMax / 256.0)
  }

  function SupercapVoltage(bus: Bus): (r: Reply<real>)
    ensures r.bus.log == bus.log + [ByteRead(R.SupercapVoltage)]
    ensures r.res.Ok? <==> Holds(bus, R.SupercapVoltage, 1)
    ensures r.res.Ok? ==> r.res.value == VcapMax * bus.regs[R.SupercapVoltage][0] as real / 256.0
    ensures r.res.Ok? ==> 0.0 <= r.res.value <= VcapMax * 255.0 / 256.0
  {
    Scaled(bus, R.SupercapVoltage, VcapMax / 256.0)
  }

  /** The thresholds use the supercap's scale: a threshold register and the
      supercap register holding the same byte read as the same voltage. */
  lemma ThresholdsShareSupercapScale(bus: Bus)
    requires Holds(bus, R.PowerOnThreshold, 1) && Holds(bus, R.SupercapVoltage, 1)
    requires bus.regs[R.PowerOnThreshold][0] == bus.regs[R.SupercapVoltage][0]
    ensures PowerOnThreshold(bus).res == SupercapVoltage(bus).res
  {
  }

  /** Bytes 0 to 13 name a state; any other byte raises. */
  function DecodeState(raw: int): (r: Result<DS.DeviceState>)
    ensures r.Ok? <==> 0 <= raw < Count
    ensures r.Ok? ==> DS.Code(r.value) == raw
    ensures r.Err? ==> r.fault == UnknownState(raw)
  {
    if 0 <= raw < Count then DS.Decode(raw) else Err(UnknownState(raw))
  }

  /** The 14 states are the first 14 of the newer enumeration, by value and
      by name; the newer sleep states are unknown here. */
  lemma StatesArePrefix(raw: int)
    ensures 0 <= raw < Count ==> DecodeState(raw) == DS.Decode(raw)
    ensures Count <= raw < DS.Count ==> DecodeState(raw).Err? && DS.Decode(raw).Ok?
  {
  }

  function State(bus: Bus): (r: Reply<DS.DeviceState>)
    ensures Unchanged(bus, r.bus) && r.bus.log == bus.log + [ByteRead(R.State)]
    ensures r.res.Ok? <==> Holds(bus, R.State, 1) && bus.regs[R.State][0] < Count
    ensures r.res.Ok? ==> DS.Code(r.res.value) == bus.regs[R.State][0]
  {
    var b := ReadByte(bus, R.State);
    match b.res
    case Ok(raw) => Reply(DecodeState(raw), b.bus)
    case Err(f) => Reply(Err(f), b.bus)
  }

  /** A byte of deciseconds, as on the legacy driver. */
  function SetWatchdogTimeout(bus: Bus, timeout: real): (r: Reply<()>)
    ensures r.bus.log == bus.log + [ByteWrite(R.WatchdogTimeout, Trunc(10.0 * timeout))]
    ensures r == L.SetWatchdogTimeout(bus, timeout)
  {
    WriteByte(bus, R.WatchdogTimeout, Trunc(10.0 * timeout))
  }

  /** A timeout below 25.6 s lands in the register as its whole number of
      deciseconds. */
  lemma WatchdogStored(bus: Bus, timeout: real)
    requires Reliable(bus) && 0.0 <= timeout && 10.0 * timeout < 256.0
    ensures var w := SetWatchdogTimeout(bus, timeout);
            w.res.Ok? && ReadByte(w.bus, R.WatchdogTimeout).res == Ok(Trunc(10.0 * timeout))
  {
    WriteThenReadByte(bus, R.WatchdogTimeout, Trunc(10.0 * timeout));
  }
}

=== FILE: supervisor.dfy ===
/** The blackout supervisor: a five-mode machine polled at a fixed interval.
    One iteration reads the DC input voltage once and then acts on the mode.
    The decision itself is the pure `Step`; `Iterate` runs one poll against
    the device and the host. */
module Supervisor {

  import O = Outcome
  import N = Numeric
  import opened Transport
  import P = Protocol
  import R = Registers

  datatype Mode = Start | Ok | Blackout | Shutdown | Dead

  /** The mode and the time the current blackout began. The epoch is not
      cleared on recovery; the next onset overwrites it. */
  datatype Monitor = Monitor(mode: Mode, epoch: real)

  /** blackout_time_limit (seconds) and blackout_voltage_limit (volts). */
  datatype Limits = Limits(timeLimit: real, voltageLimit: real)

  /** What an iteration asks of the device and the host. */
  datatype Effect =
    | ArmWatchdog(seconds: real)  // set the device watchdog timeout
    | NotifyDevice                // send the shutdown command to the device
    | Poweroff                    // run the poweroff command and wait for it

  datatype Transition = Transition(next: Monitor, effects: seq<Effect>)

  /** The watchdog timeout armed on the first iteration. */
  const KeepAlive: real := 10.0

  const Initial: Monitor := Monitor(Start, 0.0)

  /** The transitions the machine may take, independent of the inputs. */
  predicate Edge(from: Mode, to: Mode) {
    match from
    case Start => to == Ok
    case Ok => to == Ok || to == Blackout
    case Blackout => to == Blackout || to == Ok || to == Shutdown
    case Shutdown => to == Dead
    case Dead => to == Dead
  }

  /** One iteration's decision, given the voltage read and the current time. */
  function Step(m: Monitor, voltage: real, now: real, lim: Limits, dryRun: bool): (t: Transition)
    ensures Edge(m.mode, t.next.mode)
    ensures m.mode == Start ==> t.effects == [ArmWatchdog(KeepAlive)]
    ensures m.mode == Ok ==> (t.next.mode == Blackout <==> voltage < lim.voltageLimit)
    ensures m.mode == Blackout ==> (t.next.mode == Ok <==> voltage > lim.voltageLimit)
    ensures m.mode == Blackout ==>
      (t.next.mode == Shutdown <==> voltage <= lim.voltageLimit && now - m.epoch > lim.timeLimit)
    ensures t.next.epoch == if m.mode == Ok && t.next.mode == Blackout then now else m.epoch
    ensures m.mode == Shutdown ==> t.effects == if dryRun then [] else [NotifyDevice, Poweroff]
    ensures m.mode != Start && m.mode != Shutdown ==> t.effects == []
  {
    match m.mode
    case Start => Transition(m.(mode := Ok), [ArmWatchdog(KeepAlive)])
    case Ok =>
      if voltage < lim.voltageLimit then Transition(Monitor(Blackout, now), [])
      else Transition(m, [])
    case Blackout =>
      if voltage > lim.voltageLimit then Transition(m.(mode := Ok), [])
      else if now - m.epoch > lim.timeLimit then Transition(m.(mode := Shutdown), [])
      else Transition(m, [])
    case Shutdown =>
      Transition(m.(mode := Dead), if dryRun then [] else [NotifyDevice, Poweroff])
    case Dead => Transition(m, [])
  }

  /** A reading exactly at the limit neither starts nor ends a blackout. */
  lemma AtLimitChangesNothing(m: Monitor, now: real, lim: Limits, dryRun: bool)
    requires m.mode == Ok || m.mode == Blackout
    ensures var t := Step(m, lim.voltageLimit, now, lim, dryRun);
            t.next.mode == m.mode || t.next.mode == Shutdown
    ensures var t := Step(m, lim.voltageLimit, now, lim, dryRun);
            m.mode == Ok ==> t == Transition(m, [])
  {
  }

  /** Recovery wins the tie: a recovering reading returns to Ok even when
      the blackout has outlasted the time limit in the same poll. */
  lemma RecoveryBeforeDeadline(m: Monitor, voltage: real, now: real, lim: Limits, dryRun: bool)
    requires m.mode == Blackout && voltage > lim.voltageLimit && now - m.epoch > lim.timeLimit
    ensures Step(m, voltage, now, lim, dryRun).next.mode == Ok
  {
  }

  // ---------------------------------------------------------------------
  // Runs over a sequence of polls

  datatype Sample = Sample(voltage: real, now: real)

  /** The machine driven by a sequence of polls: the final state and every
      effect, in order. */
  function Drive(m: Monitor, polls: seq<Sample>, lim: Limits, dryRun: bool): Transition
    decreases |polls|
  {
    if |polls| == 0 then Transition(m, [])
    else
      var t := Step(m, polls[0].voltage, polls[0].now, lim, dryRun);
      var rest := Drive(t.next, polls[1..], lim, dryRun);
      Transition(rest.next, t.effects + rest.effects)
  }

  /** The mode after each poll. */
  function Modes(m: Monitor, polls: seq<Sample>, lim: Limits, dryRun: bool): (ms: seq<Mode>)
    ensures |ms| == |polls|
    decreases |polls|
  {
    if |polls| == 0 then []
    else
      var t := Step(m, polls[0].voltage, polls[0].now, lim, dryRun);
      [t.next.mode] + Modes(t.next, polls[1..], lim, dryRun)
  }

  function CountOf(effects: seq<Effect>, e: Effect): nat
    decreases |effects|
  {
    if |effects| == 0 then 0
    else (if effects[0] == e then 1 else 0) + CountOf(effects[1..], e)
  }

  lemma {:induction false} CountOfAppend(a: seq<Effect>, b: seq<Effect>, e: Effect)
    ensures CountOf(a + b, e) == CountOf(a, e) + CountOf(b, e)
    decreases |a|
  {
    if |a| > 0 {
      assert (a + b)[1..] == a[1..] + b;
      CountOfAppend(a[1..], b, e);
    } else {
      assert a + b == b;
    }
  }

  /** Dead is absorbing: no poll leaves it and none has an effect. */
  lemma {:induction false} DeadIsFinal(m: Monitor, polls: seq<Sample>, lim: Limits, dryRun: bool)
    requires m.mode == Dead
    ensures Drive(m, polls, lim, dryRun) == Transition(m, [])
    ensures forall i :: 0 <= i < |polls| ==> Modes(m, polls, lim, dryRun)[i] == Dead
    decreases |polls|
  {
    if |polls| > 0 {
      DeadIsFinal(m, polls[1..], lim, dryRun);
    }
  }

  /** Over any run the device is told to shut down, and poweroff is run, at
      most once; from Dead, never again. */
  lemma {:induction false} AtMostOneShutdown(m: Monitor, polls: seq<Sample>, lim: Limits, dryRun: bool)
    ensures CountOf(Drive(m, polls, lim, dryRun).effects, NotifyDevice) <= if m.mode == Dead then 0 else 1
    ensures CountOf(Drive(m, polls, lim, dryRun).effects, Poweroff) <= if m.mode == Dead then 0 else 1
    decreases |polls|
  {
    if |polls| > 0 {
      var t := Step(m, polls[0].voltage, polls[0].now, lim, dryRun);
      var rest := Drive(t.next, polls[1..], lim, dryRun);
      AtMostOneShutdown(t.next, polls[1..], lim, dryRun);
      CountOfAppend(t.effects, rest.effects, NotifyDevice);
      CountOfAppend(t.effects, rest.effects, Poweroff);
      if m.mode == Shutdown {
        DeadIsFinal(t.next, polls[1..], lim, dryRun);
      }
    }
  }

  /** Polls every 100 ms with limits of 0.25 s and 9 V: input
      [10, 10, 5, 5, 5, 10] enters Blackout on the third poll and is back to
      Ok on the sixth, never reaching Shutdown. */
  lemma BriefOutageRecovers()
    ensures var polls := [Sample(10.0, 0.0), Sample(10.0, 0.1), Sample(5.0, 0.2),
                          Sample(5.0, 0.3), Sample(5.0, 0.4), Sample(10.0, 0.5)];
            Modes(Initial, polls, Limits(0.25, 9.0), false)
              == [Ok, Ok, Blackout, Blackout, Blackout, Ok]
  {
  }

  /** Input [10, 5, 5, 5, 5] with the same limits: Blackout from the second
      poll (t = 0.1 s) and Shutdown on the fifth (t = 0.4 s, the first poll
      more than 0.25 s after onset), then Dead on every later poll. */
  lemma SustainedOutageShutsDown(later: seq<Sample>)
    ensures var polls := [Sample(10.0, 0.0), Sample(5.0, 0.1), Sample(5.0, 0.2),
                          Sample(5.0, 0.3), Sample(5.0, 0.4)];
            var ms := Modes(Initial, polls + later, Limits(0.25, 9.0), false);
            && ms[..5] == [Ok, Blackout, Blackout, Blackout, Shutdown]
            && forall i :: 5 <= i < |ms| ==> ms[i] == Dead
  {
    var lim := Limits(0.25, 9.0);
    var m1 := Monitor(Ok, 0.0);
    var m2 := Monitor(Blackout, 0.1);
    var m5 := Monitor(Shutdown, 0.1);
    ModesCons(m5, Sample(5.0, 0.4), later, lim, false);
    ModesCons(m2, Sample(5.0, 0.3), [Sample(5.0, 0.4)] + later, lim, false);
    ModesCons(m2, Sample(5.0, 0.2), [Sample(5.0, 0.3), Sample(5.0, 0.4)] + later, lim, false);
    ModesCons(m1, Sample(5.0, 0.1), [Sample(5.0, 0.2), Sample(5.0, 0.3), Sample(5.0, 0.4)] + later, lim, false);
    ModesCons(Initial, Sample(10.0, 0.0),
              [Sample(5.0, 0.1), Sample(5.0, 0.2), Sample(5.0, 0.3), Sample(5.0, 0.4)] + later, lim, false);
    AfterShutdown(m5, later, lim, false);
    var polls := [Sample(10.0, 0.0), Sample(5.0, 0.1), Sample(5.0, 0.2),
                  Sample(5.0, 0.3), Sample(5.0, 0.4)];
    assert polls + later
        == [Sample(10.0, 0.0)] + ([Sample(5.0, 0.1), Sample(5.0, 0.2), Sample(5.0, 0.3), Sample(5.0, 0.4)] + later);
    var tail := Modes(m5, later, lim, false);
    var from4 := Modes(m2, [Sample(5.0, 0.4)] + later, lim, false);
    assert from4 == [Shutdown] + tail;
    var from3 := Modes(m2, [Sample(5.0, 0.3), Sample(5.0, 0.4)] + later, lim, false);
    assert [Sample(5.0, 0.3), Sample(5.0, 0.4)] + later == [Sample(5.0, 0.3)] + ([Sample(5.0, 0.4)] + later);
    assert from3 == [Blackout] + from4;
    var from2 := Modes(m2, [Sample(5.0, 0.2), Sample(5.0, 0.3), Sample(5.0, 0.4)] + later, lim, false);
    assert [Sample(5.0, 0.2), Sample(5.0, 0.3), Sample(5.0, 0.4)] + later
        == [Sample(5.0, 0.2)] + ([Sample(5.0, 0.3), Sample(5.0, 0.4)] + later);
    assert from2 == [Blackout] + from3;
    var from1 := Modes(m1, [Sample(5.0, 0.1), Sample(5.0, 0.2), Sample(5.0, 0.3), Sample(5.0, 0.4)] + later, lim, false);
    assert [Sample(5.0, 0.1), Sample(5.0, 0.2), Sample(5.0, 0.3), Sample(5.0, 0.4)] + later
        == [Sample(5.0, 0.1)] + ([Sample(5.0, 0.2), Sample(5.0, 0.3), Sample(5.0, 0.4)] + later);
    assert from1 == [Blackout] + from2;
    assert Modes(Initial, polls + later, lim, false) == [Ok] + from1;
    assert Modes(Initial, polls + later, lim, false)
        == [Ok, Blackout, Blackout, Blackout, Shutdown] + tail;
  }

  lemma ModesCons(m: Monitor, s: Sample, rest: seq<Sample>, lim: Limits, dryRun: bool)
    ensures Modes(m, [s] + rest, lim, dryRun)
         == [Step(m, s.voltage, s.now, lim, dryRun).next.mode]
            + Modes(Step(m, s.voltage, s.now, lim, dryRun).next, rest, lim, dryRun)
  {
    assert ([s] + rest)[1..] == rest;
  }

  /** Every poll after Shutdown finds the machine Dead. */
  lemma {:induction false} AfterShutdown(m: Monitor, polls: seq<Sample>, lim: Limits, dryRun: bool)
    requires m.mode == Shutdown
    ensures forall i :: 0 <= i < |polls| ==> Modes(m, polls, lim, dryRun)[i] == Dead
  {
    if |polls| > 0 {
      var next := Step(m, polls[0].voltage, polls[0].now, lim, dryRun).next;
      DeadIsFinal(next, polls[1..], lim, dryRun);
    }
  }

  // ---------------------------------------------------------------------
  // One poll against the device

  /** Carries out the effects in order; the first failing device write stops
      the rest, as the raised exception does. */
  function Perform(dev: P.Device, bus: Bus, effects: seq<Effect>, poweroff: string): (r: Reply<()>)
    ensures bus.log <= r.bus.log
    ensures forall i :: |bus.log| <= i < |r.bus.log| ==> IsWrite(r.bus.log[i]) || r.bus.log[i].Exec?
    decreases |effects|
  {
    if |effects| == 0 then Reply(O.Ok(()), bus)
    else
      var first := match effects[0]
        case ArmWatchdog(s) => P.SetWatchdogTimeout(dev, bus, s)
        case NotifyDevice => P.RequestShutdown(bus)
        case Poweroff => Reply(O.Ok(()), Run(bus, SudoPoweroff(poweroff)));
      if first.res.Err? then first
      else Perform(dev, first.bus, effects[1..], poweroff)
  }

  /** The outcome of one poll: the next monitor state, or the exception that
      ends the loop. */
  datatype Poll = Poll(res: O.Result<Monitor>, bus: Bus)

  function CountReads(log: seq<Event>, reg: int): nat
    decreases |log|
  {
    if |log| == 0 then 0
    else (if !IsWrite(log[0]) && At(log[0], reg) then 1 else 0) + CountReads(log[1..], reg)
  }

  /** One loop iteration: read the DC input voltage, decide, then act. A bus
      failure escapes the loop. */
  function Iterate(dev: P.Device, bus: Bus, m: Monitor, now: real, lim: Limits, dryRun: bool, poweroff: string): (r: Poll)
    ensures bus.log < r.bus.log && At(r.bus.log[|bus.log|], R.DcinVoltage)
    ensures CountReads(r.bus.log[|bus.log|..], R.DcinVoltage) == 1
    ensures r.res.Ok? ==> Edge(m.mode, r.res.value.mode)
    ensures var d := P.DcinVoltage(dev, bus);
            r.res.Ok? ==> d.res.Ok? && r.res.value == Step(m, d.res.value, now, lim, dryRun).next
    ensures var d := P.DcinVoltage(dev, bus);
            d.res.Ok? ==>
              var e := Perform(dev, d.bus, Step(m, d.res.value, now, lim, dryRun).effects, poweroff);
              r.bus == e.bus && (r.res.Ok? <==> e.res.Ok?)
  {
    var d := P.DcinVoltage(dev, bus);
    match d.res
    case Err(f) =>
      assert d.bus.log[|bus.log|..] == [d.bus.log[|bus.log|]];
      Poll(O.Err(f), d.bus)
    case Ok(v) =>
      var t := Step(m, v, now, lim, dryRun);
      var e := Perform(dev, d.bus, t.effects, poweroff);
      OnlyWritesAfter(e.bus.log, |bus.log|, R.DcinVoltage);
      if e.res.Err? then Poll(O.Err(e.res.fault), e.bus)
      else Poll(O.Ok(t.next), e.bus)
  }

  lemma {:induction false} OnlyWritesAfter(log: seq<Event>, start: nat, reg: int)
    requires start < |log| && !IsWrite(log[start]) && At(log[start], reg)
    requires forall i :: start < i < |log| ==> IsWrite(log[i]) || log[i].Exec?
    ensures CountReads(log[start..], reg) == 1
    decreases |log| - start
  {
    if start + 1 < |log| {
      NoReads(log[start + 1..], reg);
    }
    assert log[start..][1..] == log[start + 1..];
  }

  lemma {:induction false} NoReads(log: seq<Event>, reg: int)
    requires forall i :: 0 <= i < |log| ==> IsWrite(log[i]) || log[i].Exec?
    ensures CountReads(log, reg) == 0
    decreases |log|
  {
    if |log| > 0 {
      NoReads(log[1..], reg);
    }
  }

  /** From Shutdown the device is told first and poweroff runs only after
      that write succeeded; a dry run touches neither. */
  lemma ShutdownOrder(dev: P.Device, bus: Bus, m: Monitor, now: real, lim: Limits, dryRun: bool, poweroff: string)
    requires m.mode == Shutdown
    ensures var r := Iterate(dev, bus, m, now, lim, dryRun, poweroff);
            r.res.Ok? ==> r.res.value == Monitor(Dead, m.epoch)
    ensures var r := Iterate(dev, bus, m, now, lim, dryRun, poweroff);
            r.res.Ok? && !dryRun ==>
              r.bus.log == bus.log + [r.bus.log[|bus.log|],
                                      ByteWrite(R.ShutdownCommand, R.CommandByte),
                                      Exec(SudoPoweroff(poweroff))]
    ensures var r := Iterate(dev, bus, m, now, lim, dryRun, poweroff);
            r.res.Err? || dryRun ==> Exec(SudoPoweroff(poweroff)) !in r.bus.log[|bus.log|..]
  {
    var r := Iterate(dev, bus, m, now, lim, dryRun, poweroff);
    var d := P.DcinVoltage(dev, bus);
    if d.res.Ok? {
      var t := Step(m, d.res.value, now, lim, dryRun);
      var e := Perform(dev, d.bus, t.effects, poweroff);
      if !dryRun {
        var w := P.RequestShutdown(d.bus);
        assert t.effects[1..] == [Poweroff];
        if w.res.Ok? {
          var x := Run(w.bus, SudoPoweroff(poweroff));
          assert [Poweroff][1..] == [];
          assert Perform(dev, w.bus, [Poweroff], poweroff) == Reply(O.Ok(()), x);
          assert e == Reply(O.Ok(()), x);
          assert e.bus.log == d.bus.log + [ByteWrite(R.ShutdownCommand, R.CommandByte), Exec(SudoPoweroff(poweroff))];
        } else {
          assert e.bus.log == d.bus.log + [ByteWrite(R.ShutdownCommand, R.CommandByte)];
          assert r.bus.log[|bus.log|..] == [d.bus.log[|bus.log|], ByteWrite(R.ShutdownCommand, R.CommandByte)];
        }
      } else {
        assert r.bus.log[|bus.log|..] == [d.bus.log[|bus.log|]];
      }
    } else {
      assert r.bus.log[|bus.log|..] == [d.bus.log[|bus.log|]];
    }
  }

  /** The write that arms the watchdog with KeepAlive seconds: 10000
      milliseconds as a big-endian word, or 100 deciseconds as a byte. */
  function ArmingWrite(dev: P.Device): Event {
    if P.WordWatchdog(dev) then BlockWrite(R.WatchdogTimeout, [39, 16])
    else ByteWrite(R.WatchdogTimeout, 100)
  }

  /** From Start the first poll reads DC-in, then makes exactly one watchdog
      write of 10 s, and moves to Ok; on a device that answers, and whose
      DC-in register can be read, it succeeds. */
  lemma StartArmsWatchdog(dev: P.Device, bus: Bus, m: Monitor, now: real, lim: Limits, dryRun: bool, poweroff: string)
    requires m.mode == Start
    ensures var r := Iterate(dev, bus, m, now, lim, dryRun, poweroff);
            r.res.Ok? ==> r.res.value == m.(mode := Ok)
    ensures var r := Iterate(dev, bus, m, now, lim, dryRun, poweroff);
            r.res.Ok? ==> r.bus.log == bus.log + [r.bus.log[|bus.log|], ArmingWrite(dev)]
    ensures Reliable(bus) && Holds(bus, R.DcinVoltage, P.Width(dev.analog))
            ==> Iterate(dev, bus, m, now, lim, dryRun, poweroff).res.Ok?
  {
    var r := Iterate(dev, bus, m, now, lim, dryRun, poweroff);
    var d := P.DcinVoltage(dev, bus);
    if d.res.Ok? {
      var t := Step(m, d.res.value, now, lim, dryRun);
      var w := P.SetWatchdogTimeout(dev, d.bus, KeepAlive);
      assert t.effects == [ArmWatchdog(KeepAlive)];
      assert t.effects[1..] == [];
      assert N.Trunc(1000.0 * KeepAlive) == 10000;
      assert N.Trunc(10.0 * KeepAlive) == 100;
      assert PackWord(10000) == [39, 16];
      assert w.bus.log == d.bus.log + [ArmingWrite(dev)];
      assert Perform(dev, d.bus, t.effects, poweroff) == w;
    }
  }

  /** With the base class's zero scales every DC-in reading is 0.0, so from
      Ok the supervisor enters Blackout on the first poll whatever the input
      voltage, for any positive limit. */
  lemma BaseDeviceBlacksOut(bus: Bus, m: Monitor, now: real, lim: Limits, dryRun: bool, poweroff: string)
    requires m.mode == Ok && lim.voltageLimit > 0.0
    ensures var n := P.New(P.Base, bus);
            var r := Iterate(n.dev, n.bus, m, now, lim, dryRun, poweroff);
            r.res.Ok? ==> r.res.value == Monitor(Blackout, now)
  {
    P.BaseAnalogIsDead(bus, 0.0);
  }

  /** A device as the factory returns it reads DC-in against its 32.1 V
      scale, in either encoding: a register value at or above the limit keeps
      the supervisor in Ok. */
  lemma FactoryDeviceStaysPowered(dev: P.Device, bus: Bus, m: Monitor, now: real, lim: Limits, dryRun: bool, poweroff: string)
    requires dev.gen != P.Base && dev.profile == P.ProfileOf(dev.gen)
    requires Holds(bus, R.DcinVoltage, P.Width(dev.analog)) && m.mode == Ok
    requires 32.1 * P.RawOf(dev, bus, R.DcinVoltage) as real / P.Steps(dev.analog) as real >= lim.voltageLimit
    ensures Iterate(dev, bus, m, now, lim, dryRun, poweroff).res == O.Ok(m)
  {
    P.FactoryDcinIsLive(dev, bus);
  }
}

=== FILE: transport.dfy ===
/** The register transport: one bus to one device, every transaction logged.

    The device is an abstract register map (register address to the bytes it
    holds) plus an `online` flag. A transaction fails with BusFault when the
    device is offline, when its position in the log is one of the `glitches`
    (a transient failure), or when it reads a register that holds fewer bytes
    than asked for.
    Commands run on the host are recorded in the same log, so the order of
    device writes and host commands can be stated.
 */
module Transport {

  import opened Outcome

  type Byte = b: int | 0 <= b < 256

  /** Commands the daemon hands to the operating system. */
  datatype Command =
    | SudoPoweroff(path: string)  // check_call(["sudo", path])
    | Shell(line: string)         // a shell command line run as a subprocess
    | RtcWake(timestamp: int)     // rtcwake -m no -t <timestamp>
    | ShutdownNow                 // shutdown -h now

  datatype Event =
    | ByteRead(reg: int)
    | BlockRead(reg: int, n: nat)
    | WordRead(reg: int)          // an SMBus read-word transaction
    | ByteWrite(reg: int, val: int)
    | BlockWrite(reg: int, vals: seq<int>)
    | Exec(cmd: Command)

  datatype Bus = Bus(online: bool, glitches: set<nat>, regs: map<int, seq<Byte>>, log: seq<Event>)

  /** What a transaction (or a chain of them) returns, with the bus after it. */
  datatype Reply<+T> = Reply(res: Result<T>, bus: Bus)

  predicate IsWrite(e: Event) {
    e.ByteWrite? || e.BlockWrite?
  }

  /** The transaction addresses register reg. */
  predicate At(e: Event, reg: int) {
    !e.Exec? && e.reg == reg
  }

  /** The library stores each value in an unsigned 8-bit field: only the low
      eight bits reach the device. */
  function Low8(v: int): Byte {
    v % 256
  }

  function Low8s(vals: seq<int>): (bs: seq<Byte>)
    ensures |bs| == |vals|
    ensures forall i :: 0 <= i < |vals| ==> bs[i] == Low8(vals[i])
  {
    seq(|vals|, i requires 0 <= i < |vals| => Low8(vals[i]))
  }

  function Log(bus: Bus, e: Event): Bus {
    bus.(log := bus.log + [e])
  }

  /** The next transaction goes through. */
  predicate Up(bus: Bus) {
    bus.online && |bus.log| !in bus.glitches
  }

  /** The next transaction can read n bytes of register reg. */
  predicate Holds(bus: Bus, reg: int, n: nat) {
    Up(bus) && reg in bus.regs && |bus.regs[reg]| >= n
  }

  /** A device that answers every transaction from now on. */
  predicate Reliable(bus: Bus) {
    bus.online && bus.glitches == {}
  }

  /** Only the log differs: the register map and the failure schedule are as before. */
  predicate Unchanged(before: Bus, after: Bus) {
    after.online == before.online && after.glitches == before.glitches && after.regs == before.regs
  }

  function ReadBlock(bus: Bus, reg: int, n: nat): Reply<seq<Byte>> {
    var after := Log(bus, BlockRead(reg, n));
    if Holds(bus, reg, n) then Reply(Ok(bus.regs[reg][..n]), after)
    else Reply(Err(BusFault), after)
  }

  function ReadByte(bus: Bus, reg: int): Reply<Byte> {
    var after := Log(bus, ByteRead(reg));
    if Holds(bus, reg, 1) then Reply(Ok(bus.regs[reg][0]), after)
    else Reply(Err(BusFault), after)
  }

  /** Two bytes, most significant first: `buf[0] << 8 | buf[1]`. */
  function WordOf(buf: seq<Byte>): int
    requires |buf| == 2
  {
    var hi: int := buf[0];
    hi * 256 + buf[1]
  }

  /** A 16-bit read done as a two-byte block read, big-endian. */
  function ReadWord(bus: Bus, reg: int): (r: Reply<int>)
    ensures r.res.Ok? ==> 0 <= r.res.value < 0x1_0000
  {
    var b := ReadBlock(bus, reg, 2);
    match b.res
    case Ok(buf) => Reply(Ok(WordOf(buf)), b.bus)
    case Err(f) => Reply(Err(f), b.bus)
  }

  /** An SMBus read-word transaction: the low byte travels first. */
  function ReadWordData(bus: Bus, reg: int): (r: Reply<int>)
    ensures r.res.Ok? ==> 0 <= r.res.value < 0x1_0000
  {
    var after := Log(bus, WordRead(reg));
    if Holds(bus, reg, 2) then
      var lo: int := bus.regs[reg][0];
      var hi: int := bus.regs[reg][1];
      Reply(Ok(lo + 256 * hi), after)
    else Reply(Err(BusFault), after)
  }

  function WriteBlock(bus: Bus, reg: int, vals: seq<int>): Reply<()> {
    var after := Log(bus, BlockWrite(reg, vals));
    if Up(bus) then Reply(Ok(()), after.(regs := bus.regs[reg := Low8s(vals)]))
    else Reply(Err(BusFault), after)
  }

  function WriteByte(bus: Bus, reg: int, val: int): Reply<()> {
    var after := Log(bus, ByteWrite(reg, val));
    if Up(bus) then Reply(Ok(()), after.(regs := bus.regs[reg := [Low8(val)]]))
    else Reply(Err(BusFault), after)
  }

  /** `[(v >> 8), v & 0xFF]`: shift and mask on Python integers. */
  function PackWord(v: int): seq<int> {
    [v / 256, v % 256]
  }

  function WriteWord(bus: Bus, reg: int, v: int): Reply<()> {
    WriteBlock(bus, reg, PackWord(v))
  }

  function Run(bus: Bus, cmd: Command): Bus {
    Log(bus, Exec(cmd))
  }

  /** A 16-bit value survives packing and reading back unchanged. */
  lemma WordRoundTrip(v: int)
    requires 0 <= v < 0x1_0000
    ensures PackWord(v) == Low8s(PackWord(v))
    ensures WordOf(Low8s(PackWord(v))) == v
  {
  }

  /** No range check exists before packing: a value outside 16 bits reaches
      the device reduced modulo 65536. */
  lemma WordWraps(v: int)
    ensures WordOf(Low8s(PackWord(v))) == v % 0x1_0000
  {
    var q := v / 256;
    var lo := v % 256;
    assert v == 256 * q + lo;
    var hi := q % 256;
    assert q == 256 * (q / 256) + hi;
    assert v == 0x1_0000 * (q / 256) + (256 * hi + lo);
    assert 0 <= 256 * hi + lo < 0x1_0000;
    ModUnique(v, q / 256, 256 * hi + lo);
  }

  lemma ModUnique(v: int, k: int, r: int)
    requires v == 0x1_0000 * k + r && 0 <= r < 0x1_0000
    ensures v % 0x1_0000 == r
  {
  }

  /** A word written to a register reads back modulo 65536, and nothing
      else in the register map changes. */
  lemma WriteThenReadWord(bus: Bus, reg: int, v: int)
    requires Reliable(bus)
    ensures var w := WriteWord(bus, reg, v);
            && w.res.Ok?
            && ReadWord(w.bus, reg).res == Ok(v % 0x1_0000)
            && (forall r :: r in bus.regs && r != reg ==> r in w.bus.regs && w.bus.regs[r] == bus.regs[r])
  {
    var w := WriteWord(bus, reg, v);
    WordWraps(v);
    assert w.bus.regs[reg][..2] == Low8s(PackWord(v));
  }

  /** A byte written to a register reads back as its low eight bits. */
  lemma WriteThenReadByte(bus: Bus, reg: int, v: int)
    requires Reliable(bus)
    ensures var w := WriteByte(bus, reg, v);
            && w.res.Ok?
            && ReadByte(w.bus, reg).res == Ok(v % 256)
  {
  }
}

=== FILE: version.dfy ===
/** Version numbers: how the firmware reports them and how the driver turns
    the reported bytes into the strings the rest of the daemon compares. */
module Version {

  import opened Outcome
  import opened Numeric
  import opened Transport

  /** A byte of 0xFF means "not this register, look elsewhere" or "no build". */
  const Sentinel: Byte := 0xFF

  /** The cache value of a version not probed yet. */
  const Unknown: string := "Unknown"

  /** major.minor.patch with an optional build number. */
  datatype Info = Info(major: nat, minor: nat, patch: nat, build: Option<nat>)

  /** The string form the driver builds with f-strings: "a.b.c" or "a.b.c-d". */
  function Render(v: Info): string {
    DecimalString(v.major) + "." + DecimalString(v.minor) + "." + DecimalString(v.patch)
      + (match v.build case Some(d) => "-" + DecimalString(d) case None => "")
  }

  /** A legacy version byte b reads as 1.0.b. */
  function FromLegacy(b: Byte): Info {
    Info(1, 0, b, None)
  }

  /** A four-byte version block; a sentinel fourth byte means no build. */
  function FromBlock(block: seq<Byte>): Info
    requires |block| == 4
  {
    Info(block[0], block[1], block[2], if block[3] != Sentinel then Some(block[3]) else None)
  }

  /** `str.split(sep)`: the pieces between separators, empty pieces included. */
  function Split(s: string, sep: char): (parts: seq<string>)
    ensures |parts| >= 1
    decreases |s|
  {
    if |s| == 0 then [""]
    else
      var rest := Split(s[1..], sep);
      if s[0] == sep then [""] + rest else [[s[0]] + rest[0]] + rest[1..]
  }

  /** Reads a version string back: exactly three dot-separated numbers, the
      last optionally followed by "-" and a build number. */
  function Parse(s: string): Option<Info> {
    var fields := Split(s, '.');
    if |fields| != 3 then None
    else
      var last := Split(fields[2], '-');
      if |last| > 2 then None
      else match (ParseDecimal(fields[0]), ParseDecimal(fields[1]), ParseDecimal(last[0]))
        case (Some(a), Some(b), Some(c)) =>
          if |last| == 1 then Some(Info(a, b, c, None))
          else (match ParseDecimal(last[1])
            case Some(d) => Some(Info(a, b, c, Some(d)))
            case None => None)
        case _ => None
  }

  /** `s.startswith(prefix)` for the "<digit>." prefixes the driver tests. */
  predicate HasMajor(s: string, d: nat)
    requires d < 10
  {
    [Digit(d), '.'] <= s
  }

  lemma {:induction false} SplitWithout(s: string, sep: char)
    requires sep !in s
    ensures Split(s, sep) == [s]
    decreases |s|
  {
    if |s| > 0 {
      SplitWithout(s[1..], sep);
      assert [s[0]] + s[1..] == s;
    }
  }

  lemma {:induction false} SplitAt(a: string, sep: char, b: string)
    requires sep !in a
    ensures Split(a + [sep] + b, sep) == [a] + Split(b, sep)
    decreases |a|
  {
    var s := a + [sep] + b;
    if |a| == 0 {
      assert s[1..] == b;
    } else {
      assert s[1..] == a[1..] + [sep] + b;
      SplitAt(a[1..], sep, b);
      assert [a[0]] + a[1..] == a;
    }
  }

  lemma DigitsLackSeparators(n: nat)
    ensures '.' !in DecimalString(n) && '-' !in DecimalString(n)
  {
  }

  /** Rendering is injective: the string gives back every field, the build
      number included. */
  lemma ParseRender(v: Info)
    ensures Parse(Render(v)) == Some(v)
  {
    var da, db, dc := DecimalString(v.major), DecimalString(v.minor), DecimalString(v.patch);
    var suffix := match v.build case Some(d) => "-" + DecimalString(d) case None => "";
    var tail := dc + suffix;
    DigitsLackSeparators(v.major);
    DigitsLackSeparators(v.minor);
    DigitsLackSeparators(v.patch);
    assert Render(v) == da + ['.'] + (db + ['.'] + tail);
    match v.build {
      case Some(d) =>
        DigitsLackSeparators(d);
        assert tail == dc + ['-'] + DecimalString(d);
        SplitAt(dc, '-', DecimalString(d));
        SplitWithout(DecimalString(d), '-');
        assert Split(tail, '-') == [dc, DecimalString(d)];
        ParseDecimalString(d);
      case None =>
        assert tail == dc;
        SplitWithout(dc, '-');
    }
    assert '.' !in tail;
    SplitWithout(tail, '.');
    SplitAt(db, '.', tail);
    SplitAt(da, '.', db + ['.'] + tail);
    assert Split(Render(v), '.') == [da, db, tail];
    ParseDecimalString(v.major);
    ParseDecimalString(v.minor);
    ParseDecimalString(v.patch);
  }

  /** The driver's prefix tests select on the major number alone: "2." matches
      exactly major 2 (never 20 or 2xx), "1." exactly major 1. */
  lemma {:induction false} HasMajorIff(v: Info, d: nat)
    requires d < 10
    ensures HasMajor(Render(v), d) <==> v.major == d
  {
    var s := Render(v);
    var da := DecimalString(v.major);
    assert s == da + ("." + DecimalString(v.minor) + "." + DecimalString(v.patch)
      + (match v.build case Some(b) => "-" + DecimalString(b) case None => ""));
    if v.major < 10 {
      assert da == [Digit(v.major)];
      assert s[0] == Digit(v.major) && s[1] == '.';
      if Digit(v.major) == Digit(d) {
        assert (Digit(v.major) - '0') as int == (Digit(d) - '0') as int;
      }
    } else {
      assert |da| >= 2 && s[1] == da[1] && IsDigit(da[1]);
    }
  }

  /** A rendered version never equals the "Unknown" placeholder, so caching a
      probed version always marks it as known. */
  lemma RenderIsKnown(v: Info)
    ensures Render(v) != Unknown
  {
    var s := Render(v);
    assert s[0] == DecimalString(v.major)[0];
    assert IsDigit(s[0]);
    assert Unknown[0] == 'U';
  }

  /** The version probe: one legacy byte; on the sentinel, a four-byte block
      from the block register. It reads only, so the register map is untouched. */
  function Probe(bus: Bus, legacyReg: int, blockReg: int): (r: Reply<string>)
    ensures Unchanged(bus, r.bus)
    ensures r.res.Ok? <==>
      && Holds(bus, legacyReg, 1)
      && (bus.regs[legacyReg][0] != Sentinel || Holds(Log(bus, ByteRead(legacyReg)), blockReg, 4))
    ensures Holds(bus, legacyReg, 1) && bus.regs[legacyReg][0] == Sentinel
      ==> r.bus.log == bus.log + [ByteRead(legacyReg), BlockRead(blockReg, 4)]
    ensures !(Holds(bus, legacyReg, 1) && bus.regs[legacyReg][0] == Sentinel)
      ==> r.bus.log == bus.log + [ByteRead(legacyReg)]
    ensures r.res.Ok? && bus.regs[legacyReg][0] != Sentinel
      ==> Parse(r.res.value) == Some(Info(1, 0, bus.regs[legacyReg][0], None))
    ensures r.res.Ok? && bus.regs[legacyReg][0] == Sentinel
      ==> Parse(r.res.value) == Some(FromBlock(bus.regs[blockReg][..4]))
    ensures r.res.Ok? ==> r.res.value != Unknown && r.res.value == Render(Parse(r.res.value).value)
  {
    var l := ReadByte(bus, legacyReg);
    match l.res
    case Err(f) => Reply(Err(f), l.bus)
    case Ok(b) =>
      if b != Sentinel then
        ParseRender(FromLegacy(b));
        RenderIsKnown(FromLegacy(b));
        Reply(Ok(Render(FromLegacy(b))), l.bus)
      else
        var k := ReadBlock(l.bus, blockReg, 4);
        match k.res
        case Err(f) => Reply(Err(f), k.bus)
        case Ok(block) =>
          ParseRender(FromBlock(block));
          RenderIsKnown(FromBlock(block));
          Reply(Ok(Render(FromBlock(block))), k.bus)
  }

  /** A legacy byte b and the block [1, 0, b, 0xFF] render identically: the
      string alone does not tell the two encodings apart. */
  lemma LegacyMatchesBlock(b: Byte)
    ensures Render(FromLegacy(b)) == Render(FromBlock([1, 0, b, Sentinel]))
  {
  }
}
